=== FILE: README.md ===
# Clutch chat: a Dafny model of the messaging and account core

This project models the core of a small chat application. On the server it
covers four areas:

- the message handlers: contacts, conversation history, sending and chat partners;
- the send-request validator;
- the account handlers: signup, login, logout and profile update;
- the request-protection middleware, plus the reply and cookie helpers they share.

In the browser it covers:

- the chat store's fetch reducers and optimistic send;
- the validation chat's credential checks and run;
- the signup and login pages' form reducers.

The database is the data itself: a sequence of user documents and a message
log. A query result is the stored documents it selects, in storage order. The
contracts about a single query speak of membership and multiplicity, not of
order. Two lemmas about a send, `MessageLog.SendExtendsHistory` and
`MessageValidator.PostedMessageReachesBothParties`, also take storage order to be
insertion order, as the section on what is left out says.

Calls the handlers make into code outside the model are function parameters:

- hashing, password comparison, token signing, image upload;
- the protection service's decision;
- the HTTP results the store and pages receive.

A thrown awaited call is usually a `failure: Option<string>` parameter holding the error's message. Three places differ: `MessageLog.GetAllContacts` takes `fails: bool`, because its catch clause never uses the message; both validators take `lookupFails: bool`, because their lookup failure gets a fixed reply; and `Arcjet.Protect` receives a throw as the decision `Decision.Threw`. The handlers answer a failure with `throw500` as written (`Utils.Throw500AsWritten`). Only the signup handler, whose catch clause cannot answer at all, is modelled in corrected form with `Utils.Throw500`.

`NODE_ENV` is the parameter `nodeEnv`. Strings are `seq<char>`. JavaScript's
`.length` counts UTF-16 code units (`Common.JsLength`), and `.trim()` removes
JavaScript white space and line terminators (`Common.Trim`).

Modules follow the source files:

- `Common`: options, filtering, string helpers.
- `Models`: user and message documents.
- `Utils`: `lib/utils.js`.
- `MessageLog`: `message.controller.js`.
- `MessageValidator`: `message.validator.js`.
- `Auth`: `auth.controller.js`.
- `Arcjet`: `arcjet.middleware.js`.
- `ChatStore`: `useChatStore.js`.
- `ValidationChat`: `ValidationChat.jsx`.
- `AuthForm`: the state and reducers the two pages share.
- `SignupPage`, `LoginPage`: the two pages.

## Model

| member | source | states |
|---|---|---|
| Utils.TokenCookie | Backend/src/lib/utils.js:3-12 | The session cookie is named `jwt` and carries the signed user id. It lives 7 days (604800000 ms), is httpOnly and `sameSite` strict, and is insecure exactly when NODE_ENV is "development". |
| Utils.Throw500AsWritten | Backend/src/lib/utils.js:21-30 | As written: a 500 failure reply that shows the error's own message only when NODE_ENV equals the misspelt "developement". |
| Utils.DevelopmentHidesErrorMessage | Backend/src/lib/utils.js:26-28 | Under NODE_ENV "development", the value the cookie helper tests for, the as-written reply hides the error message. |
| Utils.Throw500 | Backend/src/lib/utils.js:21-30 | Corrected: the error's message in development, the generic message otherwise; always 500 with `success: false` and no data. |
| Utils.Throw500AgreesWithCookie | Backend/src/lib/utils.js:10 | The corrected reply exposes the error detail exactly when the session cookie is not marked secure. |
| MessageLog.SelectedPublic | Backend/src/controllers/message.controller.js:9 | A projected selection contains a user's public record exactly when the user was kept, and nothing else. |
| MessageLog.PublicListFilter | Backend/src/controllers/message.controller.js:9 | Selecting records and then dropping the password gives the same list as dropping the password and then selecting, when both tests agree on every record. |
| MessageLog.Contacts | Backend/src/controllers/message.controller.js:9 | Every user except the caller, each without the password, as often as that user's record is stored; the caller never appears. |
| MessageLog.GetAllContacts | Backend/src/controllers/message.controller.js:6-21 | A failed query gets no reply at all, because the catch clause throws the response object. Otherwise 200 with the contact list: every user except the caller, each once per stored record. |
| MessageLog.History | Backend/src/controllers/message.controller.js:28-33 | Exactly the messages from me to the other user or from the other user to me, each as often as it is stored. |
| MessageLog.HistorySymmetric | Backend/src/controllers/message.controller.js:28-33 | The conversation between A and B is the same list whichever of them asks. |
| MessageLog.HistoryExcludesThirdParties | Backend/src/controllers/message.controller.js:28-33 | A message with any third party is never in the history. |
| MessageLog.GetMessagesByUserId | Backend/src/controllers/message.controller.js:23-43 | A failed query gets the as-written 500 reply. Otherwise 200 with the history between the caller and the ObjectId the path names, each message as often as it is stored. |
| MessageLog.Send | Backend/src/controllers/message.controller.js:46-77 | On success the log grows by exactly one message, returned with 201. Its sender is the caller and its receiver the ObjectId the path names (stored canonically); its text is as given. It has an image exactly when one was sent, and the image is the upload's URL. On failure the log is unchanged and the reply is the as-written 500. |
| MessageLog.SendExtendsHistory | Backend/src/controllers/message.controller.js:58-65 | After a send, the conversation between the caller and the ObjectId the path names gains exactly the new message, as a multiset. Taking storage order to be insertion order, it is the old conversation followed by the new message, from either side. |
| MessageLog.SendLeavesOtherHistories | Backend/src/controllers/message.controller.js:58-65 | A send changes no other pair's conversation. |
| MessageLog.Counterparts | Backend/src/controllers/message.controller.js:84-94 | An id is a counterpart exactly when some message involving the caller has it as the other party: the receiver if the caller sent it, otherwise the sender. |
| MessageLog.PartnerIdsIff | Backend/src/controllers/message.controller.js:90-96 | The partner id set is exactly the counterparts of messages involving the caller. |
| MessageLog.PartnersSymmetric | Backend/src/controllers/message.controller.js:84-96 | A message between distinct A and B makes each a partner of the other. |
| MessageLog.NotOwnPartner | Backend/src/controllers/message.controller.js:84-96 | With no message to oneself in the log, nobody is their own partner. |
| MessageLog.Partners | Backend/src/controllers/message.controller.js:96 | The public records of exactly the users whose id is a partner id. |
| MessageLog.PartnersDistinct | Backend/src/controllers/message.controller.js:96 | With distinct user ids, each partner appears once, however many messages link them. |
| MessageLog.GetChatPartners | Backend/src/controllers/message.controller.js:79-106 | A failed query gets the as-written 500 reply. Otherwise 200 with the partner list: a user is listed exactly when their id is a partner id. |
| MessageValidator.ValidateAsWritten | Backend/src/validators/message.validator.js:18-60 | As written, every rejection is 400. The checks run in order: missing content, then a malformed id, then a failed lookup ("Error validating message"), then an unknown receiver, then a path id equal as a string to the caller's id. The request passes exactly when none of these applies. |
| MessageValidator.ContentCheckedFirst | Backend/src/validators/message.validator.js:20-25 | On both routes, a request without text or image is refused for that reason, whatever the id, the users, the lookup or the handler; nothing is stored. |
| MessageValidator.UpperCaseSelfIdAccepted | Backend/src/validators/message.validator.js:46 | As written: the upper-case spelling of the caller's own id passes every check. |
| MessageValidator.Validate | Backend/src/validators/message.validator.js:18-60 | Corrected: the same ordered chain, except that the self check compares the ObjectId the path names with the caller's id. |
| MessageValidator.UpperCaseSelfIdRejected | Backend/src/validators/message.validator.js:45-51 | The corrected validator refuses that request as a self-send. |
| MessageValidator.ValidatorsAgreeOnCanonicalIds | Backend/src/validators/message.validator.js:45-51 | On lower-case ids the two validators agree. |
| MessageValidator.Route | Backend/src/validators/message.validator.js:53 | A rejection is sent as is and stores nothing. `next()` runs the send handler, which stores the message on success. |
| MessageValidator.PostMessageAsWritten | Backend/src/validators/message.validator.js:18-60 | The send route exactly as written: rejections store nothing, and an accepted request that does not fail is stored and answered with 201. |
| MessageValidator.UpperCaseSelfSendStored | Backend/src/validators/message.validator.js:46 | As written, the upper-case spelling of the caller's own id gets a 201 and stores a message with the caller at both ends. The corrected route refuses it with "Cannot send message to yourself" and stores nothing. |
| MessageValidator.PostMessage | Backend/src/validators/message.validator.js:18-60 | The send route with the corrected validator. A rejection is a 400 failure and stores nothing. An accepted request that then fails is a 500 and stores nothing. Otherwise the reply is 201 and the log grows by the returned message, from the caller to the ObjectId the path names. |
| MessageValidator.PostMessagePreservesInvariants | Backend/src/controllers/message.controller.js:46-77 | The corrected route keeps three things true of the log: every id is canonical, no message is to oneself, and every message has content. So the caller is never their own chat partner. |
| MessageValidator.PostedMessageReachesBothParties | Backend/src/controllers/message.controller.js:84-100 | After an accepted post, each party is the other's chat partner. Fetching the conversation from either side, with the path id in any letter case, gives the old conversation followed by the new message, taking storage order to be insertion order. |
| Auth.FindByEmail | Backend/src/controllers/auth.controller.js:11 | Absent exactly when no stored user has the email; otherwise a stored user with that email. |
| Auth.Signup | Backend/src/controllers/auth.controller.js:7-34 | Corrected. A known email gives 400 "User already exists" with no change and no cookie. A new email gives 201: the store grows by one user holding the hash of the password, the session cookie is set, and the reply carries the user without the password. A failure gives the 500 reply. |
| Auth.SignupKeepsEmailsUnique | Backend/src/controllers/auth.controller.js:11-13 | Signup never creates a second account with one email. |
| Auth.SignupAsWritten | Backend/src/controllers/auth.controller.js:7-34 | As written: the store never changes and no cookie is set. Only a known email gets a reply (400); any other request gets none. |
| Auth.SignupAsWrittenNeverCreates | Backend/src/lib/utils.js:14-19 | As written, a new email creates no account and gets no reply, where the corrected handler answers 201. |
| Auth.SignupAsWrittenFailureUnanswered | Backend/src/controllers/auth.controller.js:30-32 | As written, a failure is never answered, where the corrected handler answers 500. |
| Auth.Login | Backend/src/controllers/auth.controller.js:36-72 | The store is never changed. A cookie is set exactly on a 200, which happens exactly when the email is known and the password matches that user's hash. Any other outcome without a failure is 400 "Invalid Credentials"; a failure gets the as-written 500 reply. The success body holds only the id, username, email and picture. |
| Auth.LoginHidesWhichCheckFailed | Backend/src/controllers/auth.controller.js:42-55 | An unknown email and a wrong password give the identical outcome. |
| Auth.FindAppended | Backend/src/controllers/auth.controller.js:11 | A user appended behind a store without their email is found by it. |
| Auth.SignupThenLogin | Backend/src/controllers/auth.controller.js:14-67 | After a successful signup, logging in with the same email and password succeeds with the new user's data and cookie, provided the comparison accepts a password against its own hash. |
| Auth.Logout | Backend/src/controllers/auth.controller.js:75-81 | The `jwt` cookie becomes "" with maxAge 0 and no other options; the reply is 200. |
| Auth.LogoutClearsLoginCookie | Backend/src/controllers/auth.controller.js:76 | Logout overwrites the login cookie's name with an immediately expiring value. |
| Auth.SetProfilePic | Backend/src/controllers/auth.controller.js:96-100 | Users with the caller's id get the new picture; every other field and every other user is unchanged. |
| Auth.UpdateProfile | Backend/src/controllers/auth.controller.js:84-111 | A missing or empty picture gives 400 "Profile Pic is required" with no change. A failure gives the as-written 500 reply with no change. Otherwise the caller's picture becomes the upload's URL and 200 returns the caller's stored document. |
| Auth.UpdateProfileTouchesOnlyCaller | Backend/src/controllers/auth.controller.js:93-100 | Only the caller's record changes, and only its picture. |
| Auth.UpdateProfileReturnsCaller | Backend/src/controllers/auth.controller.js:96-106 | When the caller exists, the reply carries the caller's document with the uploaded URL. |
| Arcjet.Protect | Backend/src/middlewares/arcjet.middleware.js:6-38 | A denial answers by reason: 429 for a rate limit, 403 "Bot access denied." for a bot, 403 with the security-policy message otherwise. An allowed decision with a spoofed-bot result answers 403 "Malicious bot activity detected.". An allowed, clean decision calls `next()` and answers nothing. A throw answers with the as-written 500 reply and also calls `next()`. |
| Arcjet.DenialPrecedesSpoofCheck | Backend/src/middlewares/arcjet.middleware.js:10-26 | A denial's reply does not depend on the rule results. |
| Arcjet.AnswerAndNextOnlyOnThrow | Backend/src/middlewares/arcjet.middleware.js:34-37 | Answering and calling `next()` both happen exactly when `protect` threw. |
| Arcjet.ProtectStatus | Backend/src/middlewares/arcjet.middleware.js:10-32 | 429 exactly for a rate limit, 500 exactly for a throw, 403 exactly for the other denials and for spoofed bots. |
| Arcjet.OneSpoofedResultSuffices | Backend/src/middlewares/arcjet.middleware.js:26 | One spoofed result among any others refuses an allowed request. |
| ChatStore.ToggleSound | Frontend/src/store/useChatStore.js:19-22 | The sound flag flips and nothing else changes. |
| ChatStore.ToggleSoundTwiceRestores | Frontend/src/store/useChatStore.js:19-22 | Toggling twice restores the state. |
| ChatStore.BeginUsersFetch | Frontend/src/store/useChatStore.js:28 | Raises the one user-loading flag and changes nothing else. |
| ChatStore.SharedUsersLoadingFlag | Frontend/src/store/useChatStore.js:27-44 | With both user lists in flight, the first reply clears the shared loading flag while the other request is still pending. |
| ChatStore.UsersRepliesCommute | Frontend/src/store/useChatStore.js:30-43 | The two user lists' replies give the same final state in either order. |
| ChatStore.UsersFetchLeavesNoTrace | Frontend/src/store/useChatStore.js:27-44 | A user fetch with nothing interleaved leaves no trace of its loading phase. |
| ChatStore.GetAllContactsResolved | Frontend/src/store/useChatStore.js:29-33 | The contacts become the fetched list, or empty on error; the shared loading flag ends false; nothing else changes. |
| ChatStore.GetMyChatPartnersResolved | Frontend/src/store/useChatStore.js:39-43 | The chats become the fetched list, or empty on error; the shared loading flag ends false; nothing else changes. |
| ChatStore.GetMessagesByUserIdResolved | Frontend/src/store/useChatStore.js:48-52 | The visible messages become the fetched ones, or empty on error, with no placeholder left. Nothing else changes. |
| ChatStore.BeginMessagesFetch | Frontend/src/store/useChatStore.js:47 | Raises the message-loading flag and changes nothing else. |
| ChatStore.RemoveById | Frontend/src/store/useChatStore.js:85 | Exactly the entries with other ids remain, each as often as before, and none with the removed id. |
| ChatStore.Submit | Frontend/src/store/useChatStore.js:56-73 | With a selected user, one placeholder is appended, carrying the temporary id, the caller, the text and the image, and earlier entries are kept. With none, reading `selectedUser._id` throws and the state is unchanged. |
| ChatStore.Confirm | Frontend/src/store/useChatStore.js:78-82 | Every entry with the temporary id becomes the saved message; every other entry is kept in place. |
| ChatStore.Rollback | Frontend/src/store/useChatStore.js:85 | Exactly the entries without the temporary id remain, each as often as before. |
| ChatStore.RollbackSplits | Frontend/src/store/useChatStore.js:85 | Rolling back keeps the order of what remains: cut anywhere, the result is the rolled-back front followed by the rolled-back back. |
| ChatStore.SubmitAddsOnePlaceholder | Frontend/src/store/useChatStore.js:60-73 | With a fresh temporary id, exactly one entry carries it after the submit. |
| ChatStore.ReplaceAmidOthers | Frontend/src/store/useChatStore.js:79-81 | Replacing a uniquely identified entry changes that entry alone. |
| ChatStore.RemoveAmidOthers | Frontend/src/store/useChatStore.js:85 | Removing a uniquely identified entry leaves its neighbours in order. |
| ChatStore.ConfirmReplacesPlaceholder | Frontend/src/store/useChatStore.js:56-82 | Submit then confirm gives the old list plus the saved message. |
| ChatStore.RollbackRestores | Frontend/src/store/useChatStore.js:56-85 | Submit then rollback restores the state exactly. |
| ChatStore.SameMillisecondSends | Frontend/src/store/useChatStore.js:60 | Two sends in one millisecond share a temporary id: the first confirmation replaces both placeholders with the first saved message. |
| ChatStore.FetchDuringSendDropsPlaceholder | Frontend/src/store/useChatStore.js:46-82 | A conversation fetch that resolves while a send is in flight drops the placeholder. The send's success then changes nothing: the list stays exactly the fetched one, and the sent message is shown iff the fetched list already contains it. |
| ValidationChat.ValidPassword | Frontend/src/components/ValidationChat.jsx:20-23 | Accepts exactly non-empty passwords of at least 6 UTF-16 code units: every 6-character password, and none shorter than 3 characters. |
| ValidationChat.ThreeAstralCharactersMakeAPassword | Frontend/src/components/ValidationChat.jsx:22 | A three-character password of emoji outside the Basic Multilingual Plane is accepted. |
| ValidationChat.ValidUsername | Frontend/src/components/ValidationChat.jsx:25-29 | Accepts exactly names whose trimmed form has 3 to 20 UTF-16 code units. |
| ValidationChat.FirstAt | Frontend/src/components/ValidationChat.jsx:16 | The position of the first `@`, or the length when there is none. |
| ValidationChat.EmailPatternIff | Frontend/src/components/ValidationChat.jsx:16-17 | The decision procedure accepts a string exactly when it splits as local@domain.tld, each part non-empty and free of white space and `@`. |
| ValidationChat.ValidEmail | Frontend/src/components/ValidationChat.jsx:14-18 | Accepts exactly non-empty input whose trimmed form matches the regular expression. |
| ValidationChat.FeedbackFor | Frontend/src/components/ValidationChat.jsx:105-152 | The feedback accepts exactly when the field is valid, and every reply, accepting or not, belongs to the field asked about. The "doesn't meet the requirements" fallback is unreachable. Each failure reason holds exactly in its case: a blank field is "required"; otherwise a username reports its trimmed length as too short or too long, an email is malformed, and a password is too short. An accepted username echoes its trimmed value. |
| ValidationChat.Echo | Frontend/src/components/ValidationChat.jsx:94-96 | A password is shown as min(length, 10) bullets, whatever it contains. Other fields are shown as typed, or "(empty)". |
| ValidationChat.FieldsFor | Frontend/src/components/ValidationChat.jsx:82-84 | Signup checks username, email and password; login checks email and password. |
| ValidationChat.ErrorsOf | Frontend/src/components/ValidationChat.jsx:86-152 | The error map has exactly the listed fields as keys, each true exactly when its check fails. |
| ValidationChat.AllValid | Frontend/src/components/ValidationChat.jsx:86-152 | `allValid` holds exactly when every listed field passes. |
| ValidationChat.RoundFor | Frontend/src/components/ValidationChat.jsx:90-157 | The round for a field names that field, and its feedback accepts exactly when the field's value passes its check. |
| ValidationChat.Rounds | Frontend/src/components/ValidationChat.jsx:89-158 | One round per field, in the order of the fields. |
| ValidationChat.RunFields | Frontend/src/components/ValidationChat.jsx:86-195 | The error map has exactly the listed fields as keys, each true exactly when its check fails. `allValid` holds exactly when all pass. The closing line is posted exactly when some round's feedback is a failure. |
| ValidationChat.RunValidation | Frontend/src/components/ValidationChat.jsx:82-152 | The error map's keys are exactly the mode's fields, each flagged exactly when its check fails. |
| ValidationChat.AllValidIffNoErrors | Frontend/src/components/ValidationChat.jsx:86-152 | `allValid` holds exactly when the reported map flags nothing. |
| ValidationChat.AgreeingFormsSameErrors | Frontend/src/components/ValidationChat.jsx:89-90 | The error map reads only the listed fields. |
| ValidationChat.AgreeingFormsSameVerdict | Frontend/src/components/ValidationChat.jsx:89-90 | `allValid` reads only the listed fields. |
| ValidationChat.AgreeingFormsSameRounds | Frontend/src/components/ValidationChat.jsx:89-90 | The posted rounds read only the listed fields. |
| ValidationChat.LoginIgnoresUsername | Frontend/src/components/ValidationChat.jsx:82-84 | In login mode, the username has no influence on the run. |
| ValidationChat.OnTrigger | Frontend/src/components/ValidationChat.jsx:199-205 | A run starts exactly for a positive trigger different from the last one, which is then recorded. |
| ValidationChat.TriggerRunsOnce | Frontend/src/components/ValidationChat.jsx:66-67 | The same trigger never starts a second run. |
| ValidationChat.EverySubmitRuns | Frontend/src/components/ValidationChat.jsx:199-205 | A counter incremented past the last recorded trigger always starts a run. |
| AuthForm.Raise | Frontend/src/pages/signup.page.jsx:31-35 | The given flags are set; all other flags keep their presence and value. |
| AuthForm.RaiseKeeps | Frontend/src/pages/signup.page.jsx:31-35 | A field outside the raised set keeps its flag. |
| AuthForm.RaiseIdempotent | Frontend/src/pages/signup.page.jsx:31-35 | Raising the same flags twice leaves the map as raising them once. |
| AuthForm.Submit | Frontend/src/pages/signup.page.jsx:19-20 | The server error is cleared and the counter rises by exactly one; nothing else changes. The login page does the same (login.page.jsx:17-18). |
| AuthForm.SubmitStartsValidation | Frontend/src/pages/signup.page.jsx:20 | Each submit starts a new validation run. |
| AuthForm.OnChange | Frontend/src/pages/signup.page.jsx:69-75 | Only the edited field's value changes. Only its flag is cleared, and only if it was set. The same reducer is used for every input of both pages. |
| AuthForm.OnChangeIsLocal | Frontend/src/pages/login.page.jsx:59-65 | Typing in one field changes no other field's value or flag. |
| AuthForm.OnChangeTwice | Frontend/src/pages/signup.page.jsx:113-119 | The last edit wins, and a second edit changes no flag. |
| AuthForm.OnValidationChange | Frontend/src/pages/signup.page.jsx:161 | The validation chat's error map replaces the flags. |
| AuthForm.ValidationFlagsFailingFields | Frontend/src/pages/login.page.jsx:118 | After a run reports back, a field is flagged exactly when it belongs to the mode and fails its check. |
| AuthForm.ServerMessageOr | Frontend/src/pages/signup.page.jsx:27 | The server's message if present and non-empty, otherwise the page's fallback ("Something went wrong. Please try again." here, the invalid-credentials text at login.page.jsx:25); never empty when the fallback is not. |
| SignupPage.Blamed | Frontend/src/pages/signup.page.jsx:30-36 | At least one credential field is blamed, and never the password. |
| SignupPage.BlamedByMention | Frontend/src/pages/signup.page.jsx:30-36 | A message mentioning "email" (any case) blames email only. Otherwise one mentioning "username" blames username only. Otherwise both are blamed. |
| SignupPage.Resolve | Frontend/src/pages/signup.page.jsx:23-40 | An error sets the page error and flags exactly the blamed fields, keeping every other flag. A success with data navigates to "/". Anything else changes nothing. |
| SignupPage.ServerErrorKeepsPasswordFlag | Frontend/src/pages/signup.page.jsx:30-36 | A server error never changes the password flag. |
| SignupPage.ResolveIdempotent | Frontend/src/pages/signup.page.jsx:26-36 | The same error received twice leaves the page as after once. |
| SignupPage.WithoutLetterMBlamesBoth | Frontend/src/pages/signup.page.jsx:30-36 | A message without the letter m, in either case, blames both fields. |
| SignupPage.DuplicateAccountFlagsBoth | Frontend/src/pages/signup.page.jsx:30-36 | The server's "User already exists" names neither field, so both are flagged. |
| LoginPage.Resolve | Frontend/src/pages/login.page.jsx:21-30 | An error sets the page error and flags email and password, keeping every other flag. Anything else changes nothing. |
| LoginPage.FlagsIgnoreMessage | Frontend/src/pages/login.page.jsx:28 | The flags an error leaves do not depend on its message. |
| LoginPage.ServerMessageShown | Frontend/src/pages/login.page.jsx:25-26 | The fallback is shown exactly when the server sent no message, or sent the fallback text itself. |
| LoginPage.RetypingEmailAfterFailure | Frontend/src/pages/login.page.jsx:59-65 | After a failed login, retyping the email clears only the email flag; the password flag and the error stay. |
| Common.Filter | Backend/src/controllers/message.controller.js:28-33 | The kept elements are exactly those satisfying the predicate, each as often as in the input. |
| Common.FilterAppend | Frontend/src/store/useChatStore.js:85 | Filtering distributes over concatenation. |
| Common.Trim | Frontend/src/components/ValidationChat.jsx:27 | The result is the input with a white-space prefix and suffix cut off, and neither of its ends is white space. |
| Common.TrimEmptyIffAllSpace | Frontend/src/components/ValidationChat.jsx:109 | The trimmed input is empty exactly when the input is all white space. |
| Common.JsLength | Frontend/src/components/ValidationChat.jsx:22 | The UTF-16 length lies between the character count and twice it, equals the character count on the Basic Multilingual Plane, and is 0 only for "". |
| Common.MissingCharNotContained | Frontend/src/pages/signup.page.jsx:30 | A string lacking one of a word's characters does not contain the word. |

## Left out

- Presence and real-time delivery. The send handler and the chat list mark them as TODO, and the online-user list is never defined, so there is nothing to model.
- MongoDB itself. Queries are filters over in-memory sequences, and results keep storage order. Storage order is taken to be insertion order, because a new document is appended at the end; only the two send lemmas named below rely on that, and no other contract promises an order. ObjectIds are their canonical hex strings. Casting a string to an ObjectId is lower-casing (`Models.ObjectIdOf`), and the model applies it wherever the source puts a path id into an ObjectId field or query: the validator's receiver lookup (`ObjectIdOf(paramId) in userIds`), the stored receiver and the conversation query. Ids read back from storage are compared as strings.
- MessageLog.SendExtendsHistory: states that the new message comes LAST in the conversation. That holds because the model appends a saved message at the end of storage and returns query results in storage order. `Message.find` in the conversation query has no sort clause, so MongoDB does not guarantee that order; the order-free part, that the conversation gains exactly the new message, does not rely on it.
- MessageValidator.PostedMessageReachesBothParties: its "ends with the new message" rests on the same assumption that storage order is insertion order.
- Logging. `console.error(err.message)` in `throw500` and the handlers' `console.log` calls write to the server log only and do not change any reply or stored data, so they are not modelled.
- The express-validator chains in front of the validator and the auth routes. Among them is the `trim()` sanitizer on `text`, so `MessageLog.Send` receives `text` after any sanitizing.
- What Express does with a handler that throws. `MessageLog.GetAllContacts` and the signup catch clause end with no reply from the handler; any default error page the framework may send is not modelled.
- A path id that the ObjectId cast rejects. `MessageLog.Send` and `MessageLog.GetMessagesByUserId` take that thrown cast as their `failure` parameter; the model does not decide which strings the cast accepts.
- PostMessagePreservesInvariants: holds for the corrected route only. The route as written stores a message to oneself (`MessageValidator.UpperCaseSelfSendStored`).
- ChatStore.Submit: the caller `authUser._id` is a parameter, so a missing `authUser` (which throws before anything is set, like a missing `selectedUser`) is not modelled.
- `Auth.Signup`: a failure is taken to happen before anything is written. In the source, a failing `save()` happens after the cookie is already set.
- `Auth.UpdateProfile`: the 200 reply carries the stored document as the database returns it, password hash included. The model returns the document and states no further promise about it.
- Hashing salts, token contents and the JWT expiry claim. They are opaque function parameters; only the cookie's lifetime is stated.
- `ChatStore.ToggleSound`: the `localStorage` write and the initial read are not modelled. The initial read compares a stored string with `=== true`, so the flag always starts false.
- The placeholder's `receiverId` spelling. The server's documents use `reciverId`, so a placeholder has no `reciverId` field (`ChatStore.Entry.ReciverIdField`).
- `setActiveTab` and `setSelectedUser`: plain field assignments.
- The API wrappers, toasts, the auth store, and the `isSigningup` / `isSigningUp` mismatch between the auth store and the signup page.
- The validation chat's timers, typing indicator, scrolling, toast and API-error effect.
- The chat's exact wording and emoji. `Feedback` names each response, and the reported lengths are kept.
- `ValidationChat.Mode`: only the two modes the pages pass. A `mode` other than "signup" checks the login fields.
- `ValidationChat.ValidEmail`, `ValidUsername` and `ValidPassword` assume a string argument; the `typeof` guards are not modelled.
- `Common.Lower`: lower-cases ASCII letters only. JavaScript's `toLowerCase` also maps other scripts, which no compared text here contains.
- `Common.Trim`: the white-space set is JavaScript's, with no Unicode category table beyond the listed code points.

## Findings

| source | as written | input that shows it | evidently intended | confidence | as-written member | corrected member |
|---|---|---|---|---|---|---|
| Backend/src/lib/utils.js:26-28 | The error's own message is shown only when NODE_ENV is "developement" (misspelt). | NODE_ENV "development", error "connection refused": the reply says "Unknown error". | Show the error's message in development, the value `generateToken` tests for. | high, not executed | Utils.DevelopmentHidesErrorMessage | Utils.Throw500 |
| Backend/src/validators/message.validator.js:46 | The self-send check compares the raw path id with the caller's id as strings, while `findById` accepts either letter case. | Caller `aaaaaaaaaaaaaaaaaaaaaaaa` posting to `AAAAAAAAAAAAAAAAAAAAAAAA` passes every check and stores a message to oneself. | Compare the ObjectId the path names with the caller's id. | medium, not executed | MessageValidator.UpperCaseSelfSendStored | MessageValidator.PostMessage |
| Backend/src/lib/utils.js:14-19 | `hashPassword` calls `bcrypt`, which utils.js never imports, so it throws. | Any signup with a new email: no account is created. | Hash the password with the imported library and save the user. | high, not executed | Auth.SignupAsWrittenNeverCreates | Auth.Signup |
| Backend/src/controllers/auth.controller.js:31 | The catch clause calls `throw500` without the response object, so `throw500` itself throws and the request is never answered. | A signup whose lookup fails (or, given the row above, any new email) gets no reply. | Pass `res` so that a 500 reply is sent. | high, not executed | Auth.SignupAsWrittenFailureUnanswered | Auth.Signup |

=== FILE: arcjet.dfy ===
/**
  The request-protection middleware: the protection service's decision is
  turned into a rejection reply or a call to `next()`. The decision is a
  parameter; a thrown `protect` call is the `Threw` case.
 */
module Arcjet {
  import opened Common
  import opened Utils

  /** Why a decision denied the request. */
  datatype Reason = RateLimit | Bot | OtherReason

  /** One rule result; only whether it is a spoofed bot matters here. */
  datatype RuleResult = RuleResult(spoofedBot: bool)

  /** What `aj.protect(req)` produced. */
  datatype Decision =
    | Decided(denied: bool, reason: Reason, results: seq<RuleResult>)
    | Threw(errMessage: string)

  /** The reply sent (if any) and whether `next()` was called. */
  datatype Outcome = Outcome(reply: Option<Reply<bool>>, callsNext: bool)

  const RateLimited := "Rate limit exceeded, Please try again later"
  const BotDenied := "Bot access denied."
  const PolicyDenied := "Access denined by secuiry policy."
  const SpoofedBot := "Malicious bot activity detected."
  const ProtectionError := "Arject Protection Error"

  /** `decision.results.some(isSpoofedBot)`. */
  predicate AnySpoofed(results: seq<RuleResult>) {
    exists i :: 0 <= i < |results| && results[i].spoofedBot
  }

  function Deny(status: nat, message: string): Reply<bool> {
    Reply(status, Some(false), message, None)
  }

  /** `arcjetProtection(req, res, next)`. */
  function Protect(d: Decision, nodeEnv: Option<string>): (out: Outcome)
    ensures out.callsNext <==> out.reply.None? || d.Threw?
    ensures out.reply.None? <==> d.Decided? && !d.denied && !AnySpoofed(d.results)
    ensures d.Decided? && d.denied ==>
              out.reply == Some(match d.reason
                                case RateLimit => Deny(429, RateLimited)
                                case Bot => Deny(403, BotDenied)
                                case OtherReason => Deny(403, PolicyDenied))
    ensures d.Decided? && !d.denied && AnySpoofed(d.results) ==> out.reply == Some(Deny(403, SpoofedBot))
    ensures d.Threw? ==> out.reply == Some(Throw500AsWritten(d.errMessage, ProtectionError, nodeEnv))
    ensures out.reply.Some? ==> out.reply.value.success == Some(false) && out.reply.value.data.None?
  {
    match d
    case Threw(msg) => Outcome(Some(Throw500AsWritten(msg, ProtectionError, nodeEnv)), true)
    case Decided(denied, reason, results) =>
      if denied then
        match reason
        case RateLimit => Outcome(Some(Deny(429, RateLimited)), false)
        case Bot => Outcome(Some(Deny(403, BotDenied)), false)
        case OtherReason => Outcome(Some(Deny(403, PolicyDenied)), false)
      else if AnySpoofed(results) then Outcome(Some(Deny(403, SpoofedBot)), false)
      else Outcome(None, true)
  }

  /** A denial's reason decides the reply whatever the rule results say:
      the spoofed-bot check is never reached. */
  lemma DenialPrecedesSpoofCheck(reason: Reason, results1: seq<RuleResult>, results2: seq<RuleResult>,
                                 nodeEnv: Option<string>)
    ensures Protect(Decided(true, reason, results1), nodeEnv) == Protect(Decided(true, reason, results2), nodeEnv)
  {
  }

  /** The only outcome that both answers and passes the request on is a thrown `protect`. */
  lemma AnswerAndNextOnlyOnThrow(d: Decision, nodeEnv: Option<string>)
    ensures Protect(d, nodeEnv).reply.Some? && Protect(d, nodeEnv).callsNext <==> d.Threw?
  {
  }

  /** Status codes: 429 exactly for a rate limit, 500 exactly for a throw, 403 otherwise. */
  lemma ProtectStatus(d: Decision, nodeEnv: Option<string>)
    ensures var out := Protect(d, nodeEnv);
            && (out.reply.Some? && out.reply.value.status == 429 <==> d.Decided? && d.denied && d.reason == RateLimit)
            && (out.reply.Some? && out.reply.value.status == 500 <==> d.Threw?)
            && (out.reply.Some? && out.reply.value.status == 403 <==>
                  d.Decided? && ((d.denied && d.reason != RateLimit) || (!d.denied && AnySpoofed(d.results))))
  {
  }

  /** One spoofed result among any others is enough to refuse an allowed request. */
  lemma OneSpoofedResultSuffices(before: seq<RuleResult>, after: seq<RuleResult>, reason: Reason,
                                 nodeEnv: Option<string>)
    ensures Protect(Decided(false, reason, before + [RuleResult(true)] + after), nodeEnv).reply
            == Some(Deny(403, SpoofedBot))
  {
    assert (before + [RuleResult(true)] + after)[|before|].spoofedBot;
  }
}

=== FILE: auth.dfy ===
/**
  The account handlers: signup, login, logout and profile update over a
  user store. The store is the sequence of user documents; `findOne({ email })`
  is the first document with that email. Hashing, password comparison,
  token signing and image upload are function parameters, and a failed
  awaited call (database, upload) is the `failure` parameter carrying the
  thrown error's message. Login and the profile update answer it with
  `throw500` as written; the signup model is the corrected one.
 */
module Auth {
  import opened Common
  import opened Models
  import opened Utils

  const UserExists := "User already exists"
  const SignedUp := "signed up successfully!"
  const InvalidCredentials := "Invalid Credentials"
  const LoggedIn := "Logged in successfully!"
  const LoggedOut := "Logged out successfully"
  const PicRequired := "Profile Pic is required"
  const ProfileUpdated := "Profile updated successfully"
  const SignupError := "Unkown Error While Signup User!"
  const LoginError := "Unkown Error While Login User!"
  const ProfileError := "Unknown error while updating profile"

  /** The store after a handler, the reply it sent (if any) and the cookie it set (if any). */
  datatype Outcome<+T> = Outcome(users: seq<User>, reply: Option<Reply<T>>, cookie: Option<Cookie>)

  /** Position of the first user with that email, or `|users|` when there is none. */
  function EmailIndex(users: seq<User>, email: string): (i: nat)
    ensures i <= |users|
    ensures forall j :: 0 <= j < i ==> users[j].email != email
    ensures i < |users| ==> users[i].email == email
  {
    if users == [] || users[0].email == email then 0 else 1 + EmailIndex(users[1..], email)
  }

  /** `User.findOne({ email })`: the first user with that email. */
  function FindByEmail(users: seq<User>, email: string): (r: Option<User>)
    ensures r.None? <==> forall i :: 0 <= i < |users| ==> users[i].email != email
    ensures r.Some? ==> r.value in users && r.value.email == email
  {
    var i := EmailIndex(users, email);
    if i < |users| then Some(users[i]) else None
  }

  /** No two stored users share an email. */
  predicate UniqueEmails(users: seq<User>) {
    forall i, j :: 0 <= i < j < |users| ==> users[i].email != users[j].email
  }

  // ---------------------------------------------------------------------------
  // Signup
  // ---------------------------------------------------------------------------

  /** The document a successful signup saves: the password only as its hash. */
  function NewUser(newId: UserId, username: string, email: string, password: string,
                   hash: string -> string): User {
    User(newId, username, email, hash(password), None)
  }

  /** `signup` as evidently intended: a duplicate email is refused, otherwise
      the user is saved with a hashed password and a session cookie is set;
      a thrown error is answered by `throw500` with the response passed. */
  function Signup(users: seq<User>, username: string, email: string, password: string,
                  newId: UserId, hash: string -> string, sign: string -> string,
                  failure: Option<string>, nodeEnv: Option<string>): (out: Outcome<PublicUser>)
    ensures out.reply.Some?
    ensures failure.Some? ==> out.users == users && out.cookie.None?
                              && out.reply.value == Throw500(failure.value, SignupError, nodeEnv)
    ensures failure.None? && FindByEmail(users, email).Some? ==>
              out.users == users && out.cookie.None? && out.reply.value == Reply(400, None, UserExists, None)
    ensures out.users != users ==> out.reply.value.status == 201
    ensures out.reply.value.status == 201 <==> failure.None? && FindByEmail(users, email).None?
    ensures out.reply.value.status == 201 ==>
              && out.users == users + [NewUser(newId, username, email, password, hash)]
              && out.users[|users|].password == hash(password)
              && out.cookie == Some(TokenCookie(newId, sign, nodeEnv))
              && out.reply.value.success == Some(true) && out.reply.value.message == SignedUp
              && out.reply.value.data == Some(Public(out.users[|users|]))
  {
    if failure.Some? then
      Outcome(users, Some(Throw500(failure.value, SignupError, nodeEnv)), None)
    else if FindByEmail(users, email).Some? then
      Outcome(users, Some(Reply(400, None, UserExists, None)), None)
    else
      var u := NewUser(newId, username, email, password, hash);
      Outcome(users + [u], Some(Reply(201, Some(true), SignedUp, Some(Public(u)))),
              Some(TokenCookie(newId, sign, nodeEnv)))
  }

  /** Signup keeps emails unique. */
  lemma SignupKeepsEmailsUnique(users: seq<User>, username: string, email: string, password: string,
                                newId: UserId, hash: string -> string, sign: string -> string,
                                failure: Option<string>, nodeEnv: Option<string>)
    requires UniqueEmails(users)
    ensures UniqueEmails(Signup(users, username, email, password, newId, hash, sign, failure, nodeEnv).users)
  {
    var out := Signup(users, username, email, password, newId, hash, sign, failure, nodeEnv);
    if out.users != users {
      forall i, j | 0 <= i < j < |out.users|
        ensures out.users[i].email != out.users[j].email
      {
        if j == |users| {
          assert out.users[i] == users[i];
        }
      }
    }
  }

  /** `signup` exactly as written. `hashPassword` refers to `bcrypt`, which
      its module never imports, so for a new email it throws; the catch
      calls `throw500` without the response object, which throws in turn,
      and no reply is sent. The same happens when the lookup itself fails. */
  function SignupAsWritten(users: seq<User>, username: string, email: string, password: string,
                           failure: Option<string>): (out: Outcome<PublicUser>)
    ensures out.users == users && out.cookie.None?
    ensures out.reply.Some? <==> failure.None? && FindByEmail(users, email).Some?
    ensures out.reply.Some? ==> out.reply.value == Reply(400, None, UserExists, None)
  {
    if failure.None? && FindByEmail(users, email).Some? then
      Outcome(users, Some(Reply(400, None, UserExists, None)), None)
    else
      Outcome(users, None, None)
  }

  /** As written, signing up with a new email stores nothing and answers nothing,
      where the corrected handler creates the account. */
  lemma SignupAsWrittenNeverCreates(users: seq<User>, username: string, email: string, password: string,
                                    newId: UserId, hash: string -> string, sign: string -> string,
                                    nodeEnv: Option<string>)
    requires FindByEmail(users, email).None?
    ensures SignupAsWritten(users, username, email, password, None).users == users
    ensures SignupAsWritten(users, username, email, password, None).reply.None?
    ensures Signup(users, username, email, password, newId, hash, sign, None, nodeEnv).reply.value.status == 201
  {
  }

  /** As written, a failed lookup leaves the request unanswered, where the
      corrected handler answers 500. */
  lemma SignupAsWrittenFailureUnanswered(users: seq<User>, username: string, email: string, password: string,
                                         newId: UserId, hash: string -> string, sign: string -> string,
                                         error: string, nodeEnv: Option<string>)
    ensures SignupAsWritten(users, username, email, password, Some(error)).reply.None?
    ensures Signup(users, username, email, password, newId, hash, sign, Some(error), nodeEnv).reply.value.status == 500
  {
  }

  // ---------------------------------------------------------------------------
  // Login and logout
  // ---------------------------------------------------------------------------

  /** The success body of `login`: exactly these four fields. */
  datatype LoginData = LoginData(userId: UserId, username: string, email: string, profilePic: Option<string>)

  /** `login`: the first user with the email, if the password matches its hash,
      gets a session cookie; an unknown email and a wrong password get the
      same reply. `compare(plain, hashed)` is `bcrypt.compare`. */
  function Login(users: seq<User>, email: string, password: string,
                 compare: (string, string) -> bool, sign: string -> string,
                 failure: Option<string>, nodeEnv: Option<string>): (out: Outcome<LoginData>)
    ensures out.users == users && out.reply.Some?
    ensures failure.Some? ==> out.cookie.None? && out.reply.value == Throw500AsWritten(failure.value, LoginError, nodeEnv)
    ensures out.cookie.Some? <==> out.reply.value.status == 200
    ensures out.reply.value.status == 200 <==>
              failure.None? && FindByEmail(users, email).Some?
              && compare(password, FindByEmail(users, email).value.password)
    ensures failure.None? && out.reply.value.status != 200 ==>
              out.reply.value == Reply(400, Some(false), InvalidCredentials, None)
    ensures out.reply.value.status == 200 ==>
              var u := FindByEmail(users, email).value;
              && out.cookie == Some(TokenCookie(u.id, sign, nodeEnv))
              && out.reply.value == Reply(200, Some(true), LoggedIn, Some(LoginData(u.id, u.username, u.email, u.profilePic)))
  {
    if failure.Some? then
      Outcome(users, Some(Throw500AsWritten(failure.value, LoginError, nodeEnv)), None)
    else
      match FindByEmail(users, email)
      case None => Outcome(users, Some(Reply(400, Some(false), InvalidCredentials, None)), None)
      case Some(u) =>
        if !compare(password, u.password) then
          Outcome(users, Some(Reply(400, Some(false), InvalidCredentials, None)), None)
        else
          Outcome(users, Some(Reply(200, Some(true), LoggedIn, Some(LoginData(u.id, u.username, u.email, u.profilePic)))),
                  Some(TokenCookie(u.id, sign, nodeEnv)))
  }

  /** An unknown email and a wrong password are indistinguishable to the client. */
  lemma LoginHidesWhichCheckFailed(users: seq<User>, unknown: string, known: string, wrong: string,
                                   compare: (string, string) -> bool, sign: string -> string,
                                   nodeEnv: Option<string>)
    requires FindByEmail(users, unknown).None?
    requires FindByEmail(users, known).Some? && !compare(wrong, FindByEmail(users, known).value.password)
    ensures Login(users, unknown, wrong, compare, sign, None, nodeEnv)
            == Login(users, known, wrong, compare, sign, None, nodeEnv)
  {
  }

  /** A signed-up user can log in with the same password, provided the
      comparison accepts a password against its own hash. */
  lemma SignupThenLogin(users: seq<User>, username: string, email: string, password: string,
                        newId: UserId, hash: string -> string, compare: (string, string) -> bool,
                        sign: string -> string, nodeEnv: Option<string>)
    requires FindByEmail(users, email).None?
    requires compare(password, hash(password))
    ensures var after := Signup(users, username, email, password, newId, hash, sign, None, nodeEnv).users;
            var out := Login(after, email, password, compare, sign, None, nodeEnv);
            && out.reply.value.status == 200
            && out.reply.value.data == Some(LoginData(newId, username, email, None))
            && out.cookie == Some(TokenCookie(newId, sign, nodeEnv))
  {
    var after := Signup(users, username, email, password, newId, hash, sign, None, nodeEnv).users;
    assert after == users + [NewUser(newId, username, email, password, hash)];
    assert FindByEmail(after, email) == Some(after[|users|]) by {
      FindAppended(users, NewUser(newId, username, email, password, hash));
    }
  }

  /** Looking up the email of a user appended behind a store without it finds that user. */
  lemma {:induction false} FindAppended(users: seq<User>, u: User)
    requires FindByEmail(users, u.email).None?
    ensures FindByEmail(users + [u], u.email) == Some(u)
  {
    if users != [] {
      assert (users + [u])[1..] == users[1..] + [u];
      FindAppended(users[1..], u);
    }
  }

  /** `logout`: the cookie is overwritten with an empty, already-expired value. */
  function Logout(): (out: (Cookie, Reply<bool>))
    ensures out.0.name == "jwt" && out.0.value == "" && out.0.maxAge == 0
    ensures out.0.httpOnly.None? && out.0.sameSite.None? && out.0.secure.None?
    ensures out.1 == Reply(200, Some(true), LoggedOut, None)
  {
    (Cookie("jwt", "", 0, None, None, None), Reply(200, Some(true), LoggedOut, None))
  }

  /** Logging out replaces the value any login cookie carried. */
  lemma LogoutClearsLoginCookie(userId: UserId, sign: string -> string, nodeEnv: Option<string>)
    ensures Logout().0.name == TokenCookie(userId, sign, nodeEnv).name
    ensures Logout().0.maxAge == 0 < TokenCookie(userId, sign, nodeEnv).maxAge
  {
  }

  // ---------------------------------------------------------------------------
  // Profile update
  // ---------------------------------------------------------------------------

  /** `findByIdAndUpdate(userId, { profilePic })`: the user with that id gets the new picture. */
  function SetProfilePic(users: seq<User>, me: UserId, url: string): (r: seq<User>)
    ensures |r| == |users|
    ensures forall i :: 0 <= i < |users| ==>
              r[i].id == users[i].id && r[i].username == users[i].username
              && r[i].email == users[i].email && r[i].password == users[i].password
    ensures forall i :: 0 <= i < |users| ==>
              r[i].profilePic == if users[i].id == me then Some(url) else users[i].profilePic
  {
    seq(|users|, i requires 0 <= i < |users| =>
      if users[i].id == me then users[i].(profilePic := Some(url)) else users[i])
  }

  /** The first user with the given id. */
  function FindById(users: seq<User>, id: UserId): (r: Option<User>)
    ensures r.None? <==> forall i :: 0 <= i < |users| ==> users[i].id != id
    ensures r.Some? ==> r.value in users && r.value.id == id
  {
    if users == [] then None
    else if users[0].id == id then Some(users[0])
    else FindById(users[1..], id)
  }

  /** `updateProfile`: a missing or empty picture is refused; otherwise the
      upload's URL becomes the caller's picture and the updated document is
      returned (as stored, password hash included; `null` if the caller has
      no document). */
  function UpdateProfile(users: seq<User>, me: UserId, profilePic: Option<string>,
                         upload: string -> string, failure: Option<string>,
                         nodeEnv: Option<string>): (out: Outcome<User>)
    ensures out.cookie.None? && out.reply.Some?
    ensures !Truthy(profilePic) ==>
              out.users == users && out.reply.value == Reply(400, Some(false), PicRequired, None)
    ensures Truthy(profilePic) && failure.Some? ==>
              out.users == users && out.reply.value == Throw500AsWritten(failure.value, ProfileError, nodeEnv)
    ensures out.users != users ==> out.reply.value.status == 200
    ensures out.reply.value.status == 200 <==> Truthy(profilePic) && failure.None?
    ensures out.reply.value.status == 200 ==>
              && out.users == SetProfilePic(users, me, upload(profilePic.value))
              && out.reply.value.success == Some(true) && out.reply.value.message == ProfileUpdated
              && out.reply.value.data == FindById(out.users, me)
  {
    if !Truthy(profilePic) then
      Outcome(users, Some(Reply(400, Some(false), PicRequired, None)), None)
    else if failure.Some? then
      Outcome(users, Some(Throw500AsWritten(failure.value, ProfileError, nodeEnv)), None)
    else
      var after := SetProfilePic(users, me, upload(profilePic.value));
      Outcome(after, Some(Reply(200, Some(true), ProfileUpdated, FindById(after, me))), None)
  }

  /** A successful update changes only the caller's picture: every other user
      is untouched, and the caller's other fields are kept. */
  lemma UpdateProfileTouchesOnlyCaller(users: seq<User>, me: UserId, pic: string,
                                       upload: string -> string, nodeEnv: Option<string>)
    requires pic != ""
    ensures var out := UpdateProfile(users, me, Some(pic), upload, None, nodeEnv);
            && |out.users| == |users|
            && (forall i :: 0 <= i < |users| && users[i].id != me ==> out.users[i] == users[i])
            && (forall i :: 0 <= i < |users| && users[i].id == me ==>
                  out.users[i] == users[i].(profilePic := Some(upload(pic))))
  {
  }

  /** The returned document is the caller's, carrying the uploaded URL. */
  lemma UpdateProfileReturnsCaller(users: seq<User>, me: UserId, pic: string,
                                   upload: string -> string, nodeEnv: Option<string>)
    requires pic != ""
    requires exists i :: 0 <= i < |users| && users[i].id == me
    ensures var out := UpdateProfile(users, me, Some(pic), upload, None, nodeEnv);
            && out.reply.value.data.Some?
            && out.reply.value.data.value.id == me
            && out.reply.value.data.value.profilePic == Some(upload(pic))
  {
    var out := UpdateProfile(users, me, Some(pic), upload, None, nodeEnv);
    var i :| 0 <= i < |users| && users[i].id == me;
    assert out.users[i].id == me;
    var u := out.reply.value.data.value;
    var k :| 0 <= k < |out.users| && out.users[k] == u;
    assert users[k].id == me;
  }
}

=== FILE: auth_form.dfy ===
/**
  The state both credential pages keep: the form fields, the submit counter
  that triggers the validation chat, the per-field error flags and the
  server's error message, with the reducers the two pages share (submit,
  typing into a field, and the chat reporting its error map).
 */
module AuthForm {
  import opened Common
  import opened ValidationChat

  /** `formData`, `submitCount`, `validationErrors` and `apiError`. */
  datatype Form = Form(data: map<Field, string>, submitCount: nat, errors: map<Field, bool>, apiError: Option<string>)

  /** `validationErrors.field` as a condition: an absent flag is unset. */
  predicate Flag(errors: map<Field, bool>, f: Field) {
    f in errors && errors[f]
  }

  /** `b` is `a` except, possibly, at the keys in `changed`. */
  predicate AgreeExcept(a: map<Field, bool>, b: map<Field, bool>, changed: set<Field>) {
    forall f :: f !in changed ==> (f in a <==> f in b) && (f in a ==> a[f] == b[f])
  }

  /** `{ ...prev, f: true }` for every field in `fs`. */
  function Raise(errors: map<Field, bool>, fs: set<Field>): (r: map<Field, bool>)
    ensures AgreeExcept(errors, r, fs)
    ensures forall f :: f in fs ==> f in r && r[f]
  {
    map f | f in errors.Keys + fs :: if f in fs then true else errors[f]
  }

  /** Raising flags leaves the flag of every other field as it was. */
  lemma RaiseKeeps(errors: map<Field, bool>, fs: set<Field>, f: Field)
    requires f !in fs
    ensures Flag(Raise(errors, fs), f) == Flag(errors, f)
  {
  }

  /** Raising the same flags twice is raising them once. */
  lemma RaiseIdempotent(errors: map<Field, bool>, fs: set<Field>)
    ensures Raise(Raise(errors, fs), fs) == Raise(errors, fs)
  {
  }

  /** The synchronous part of `handleSubmit`: clear the server error and bump the counter. */
  function Submit(s: Form): (r: Form)
    ensures r.apiError.None? && r.submitCount == s.submitCount + 1
    ensures r.data == s.data && r.errors == s.errors
  {
    s.(apiError := None, submitCount := s.submitCount + 1)
  }

  /** Each submit starts a fresh validation run, whatever run the chat last recorded. */
  lemma SubmitStartsValidation(s: Form, last: int)
    requires last <= s.submitCount
    ensures OnTrigger(Submit(s).submitCount, last).runs
    ensures OnTrigger(Submit(s).submitCount, last).last == Submit(s).submitCount
  {
    EverySubmitRuns(s.submitCount, last);
  }

  /** `result.error?.response?.data?.message || fallback`: the server's message
      when it sent a non-empty one, the page's own fallback otherwise. */
  function ServerMessageOr(serverMessage: Option<string>, fallback: string): (msg: string)
    ensures Truthy(serverMessage) ==> msg == serverMessage.value
    ensures !Truthy(serverMessage) ==> msg == fallback
    ensures fallback != "" ==> msg != ""
  {
    if Truthy(serverMessage) then serverMessage.value else fallback
  }

  /** An input's `onChange`: store the typed value and clear that field's flag if it was set. */
  function OnChange(s: Form, f: Field, value: string): (r: Form)
    ensures r.data == s.data[f := value]
    ensures !Flag(r.errors, f)
    ensures Flag(s.errors, f) ==> AgreeExcept(s.errors, r.errors, {f}) && f in r.errors
    ensures !Flag(s.errors, f) ==> r.errors == s.errors
    ensures r.submitCount == s.submitCount && r.apiError == s.apiError
  {
    s.(data := s.data[f := value], errors := if Flag(s.errors, f) then s.errors[f := false] else s.errors)
  }

  /** Typing in one field leaves every other field's value and flag as it was. */
  lemma OnChangeIsLocal(s: Form, f: Field, value: string, g: Field)
    requires g != f
    ensures var r := OnChange(s, f, value);
            FieldValue(r.data, g) == FieldValue(s.data, g) && Flag(r.errors, g) == Flag(s.errors, g)
  {
  }

  /** The last edit wins: two edits of one field equal the second alone, applied to the first's state. */
  lemma OnChangeTwice(s: Form, f: Field, v1: string, v2: string)
    ensures OnChange(OnChange(s, f, v1), f, v2).data == OnChange(s, f, v2).data
    ensures OnChange(OnChange(s, f, v1), f, v2).errors == OnChange(s, f, v1).errors
  {
  }

  /** `onValidationChange={setValidationErrors}`: the chat's map replaces the flags. */
  function OnValidationChange(s: Form, errors: map<Field, bool>): (r: Form)
    ensures r.errors == errors && r.data == s.data
    ensures r.submitCount == s.submitCount && r.apiError == s.apiError
  {
    s.(errors := errors)
  }

  /** After a run reports back, a field is flagged exactly when it belongs to
      the mode and fails its check. */
  lemma ValidationFlagsFailingFields(s: Form, mode: Mode, f: Field)
    ensures var r := OnValidationChange(s, RunValidation(mode, s.data).errors);
            Flag(r.errors, f) <==> f in FieldsFor(mode) && !FieldValid(f, FieldValue(s.data, f))
  {
    var run := RunValidation(mode, s.data);
    assert f in run.errors <==> f in FieldsFor(mode);
  }
}

=== FILE: chat_store.dfy ===
/**
  The client-side chat store: the three fetch reducers, the sound toggle, and
  the optimistic send pipeline (append a placeholder, then replace it with
  the server's record or remove it), all keyed by the placeholder's
  temporary id and never by position.

  Each asynchronous action is split at its `await`: the part before it is
  one transition, and the part after it another, applied to whatever state
  the store holds by then (`get()` at resolution time).
 */
module ChatStore {
  import opened Common
  import opened Models

  /** An entry of the visible message list: a record the server returned, or
      the optimistic placeholder. The placeholder names its receiver field
      `receiverId`, while the server record says `reciverId`. */
  datatype Entry =
    | Server(msg: Message)
    | Placeholder(tempId: string, senderId: UserId, receiverId: UserId,
                  text: Option<string>, image: Option<string>, createdAt: string)
  {
    /** `entry._id` */
    function Id(): string {
      match this
      case Server(m) => m.id
      case Placeholder(t, _, _, _, _, _) => t
    }

    /** `entry.isOptimistic` */
    predicate IsOptimistic() {
      Placeholder?
    }

    /** `entry.reciverId`, the field the server's records use: a placeholder has none. */
    function ReciverIdField(): Option<UserId> {
      match this
      case Server(m) => Some(m.reciverId)
      case Placeholder(_, _, _, _, _, _) => None
    }
  }

  datatype ChatState = ChatState(
    allContacts: seq<PublicUser>,
    chats: seq<PublicUser>,
    messages: seq<Entry>,
    activeTab: string,
    selectedUser: Option<PublicUser>,
    isUsersLoading: bool,
    isMessagesLoading: bool,
    isSoundEnabled: bool)

  /** `toggleSound` (the `localStorage` write is not modelled). */
  function ToggleSound(s: ChatState): (r: ChatState)
    ensures r.isSoundEnabled != s.isSoundEnabled
    ensures r == s.(isSoundEnabled := r.isSoundEnabled)
  {
    s.(isSoundEnabled := !s.isSoundEnabled)
  }

  lemma ToggleSoundTwiceRestores(s: ChatState)
    ensures ToggleSound(ToggleSound(s)) == s
  {
  }

  // ---------------------------------------------------------------------------
  // Fetch reducers
  // ---------------------------------------------------------------------------

  /** What an API wrapper hands back: `{ data, error }` with one of them null. */
  datatype Fetch<T> = Failed | Fetched(data: T)

  /** The list a reducer stores: `error ? [] : data.data`. */
  function ListOrEmpty<T>(res: Fetch<seq<T>>): (r: seq<T>)
    ensures res.Failed? ==> r == []
    ensures res.Fetched? ==> r == res.data
  {
    match res
    case Failed => []
    case Fetched(d) => d
  }

  /** The part of `getAllContacts` and of `getMyChatPartners` before their
      `await`: both raise the one shared `isUsersLoading` flag. */
  function BeginUsersFetch(s: ChatState): (r: ChatState)
    ensures r.isUsersLoading
    ensures r.(isUsersLoading := s.isUsersLoading) == s
  {
    s.(isUsersLoading := true)
  }

  /** The rest of `getAllContacts`, applied to the state when the reply arrives. */
  function GetAllContactsResolved(s: ChatState, res: Fetch<seq<PublicUser>>): (r: ChatState)
    ensures r.allContacts == (if res.Failed? then [] else res.data)
    ensures !r.isUsersLoading
    ensures r == s.(allContacts := r.allContacts, isUsersLoading := false)
  {
    s.(allContacts := ListOrEmpty(res), isUsersLoading := false)
  }

  /** The rest of `getMyChatPartners`. */
  function GetMyChatPartnersResolved(s: ChatState, res: Fetch<seq<PublicUser>>): (r: ChatState)
    ensures r.chats == (if res.Failed? then [] else res.data)
    ensures !r.isUsersLoading
    ensures r == s.(chats := r.chats, isUsersLoading := false)
  {
    s.(chats := ListOrEmpty(res), isUsersLoading := false)
  }

  /** Both user lists fetched at once: the first reply to arrive clears the
      shared loading flag while the other request is still in flight. */
  lemma SharedUsersLoadingFlag(s: ChatState, contacts: Fetch<seq<PublicUser>>)
    ensures BeginUsersFetch(BeginUsersFetch(s)).isUsersLoading
    ensures !GetAllContactsResolved(BeginUsersFetch(BeginUsersFetch(s)), contacts).isUsersLoading
  {
  }

  /** The two user lists' replies may arrive in either order: the final state is the same. */
  lemma UsersRepliesCommute(s: ChatState, contacts: Fetch<seq<PublicUser>>, chats: Fetch<seq<PublicUser>>)
    ensures GetMyChatPartnersResolved(GetAllContactsResolved(s, contacts), chats)
            == GetAllContactsResolved(GetMyChatPartnersResolved(s, chats), contacts)
  {
  }

  /** A fetch that runs with nothing interleaved leaves no trace of its loading phase. */
  lemma UsersFetchLeavesNoTrace(s: ChatState, res: Fetch<seq<PublicUser>>)
    ensures GetAllContactsResolved(BeginUsersFetch(s), res) == GetAllContactsResolved(s, res)
    ensures GetMyChatPartnersResolved(BeginUsersFetch(s), res) == GetMyChatPartnersResolved(s, res)
  {
  }

  function ServerEntries(ms: seq<Message>): (r: seq<Entry>)
    ensures |r| == |ms|
    ensures forall i :: 0 <= i < |ms| ==> r[i] == Server(ms[i])
  {
    if ms == [] then [] else [Server(ms[0])] + ServerEntries(ms[1..])
  }

  /** The part of `getMessagesByUserId` before its `await`. */
  function BeginMessagesFetch(s: ChatState): (r: ChatState)
    ensures r.isMessagesLoading
    ensures r.(isMessagesLoading := s.isMessagesLoading) == s
  {
    s.(isMessagesLoading := true)
  }

  /** The rest of `getMessagesByUserId`: the whole visible list is replaced,
      placeholders included. */
  function GetMessagesByUserIdResolved(s: ChatState, res: Fetch<seq<Message>>): (r: ChatState)
    ensures res.Failed? ==> r.messages == []
    ensures res.Fetched? ==> |r.messages| == |res.data|
                             && forall i :: 0 <= i < |res.data| ==> r.messages[i] == Server(res.data[i])
    ensures forall e :: e in r.messages ==> !e.IsOptimistic()
    ensures !r.isMessagesLoading
    ensures r == s.(messages := r.messages, isMessagesLoading := false)
  {
    s.(messages := ServerEntries(ListOrEmpty(res)), isMessagesLoading := false)
  }

  // ---------------------------------------------------------------------------
  // Optimistic send, keyed by temporary id
  // ---------------------------------------------------------------------------

  /** `msg => msg._id === t` */
  function IdIs(t: string): Entry -> bool {
    (e: Entry) => e.Id() == t
  }

  /** `msg => msg._id !== t` */
  function IdIsNot(t: string): Entry -> bool {
    (e: Entry) => e.Id() != t
  }

  /** No entry of the list carries the temporary id. */
  predicate FreshId(xs: seq<Entry>, t: string) {
    forall i :: 0 <= i < |xs| ==> xs[i].Id() != t
  }

  /** The entries carrying the temporary id. */
  function WithId(xs: seq<Entry>, t: string): seq<Entry> {
    Filter(xs, IdIs(t))
  }

  /** `messages.map(msg => msg._id === tempId ? serverMessage : msg)`. */
  function ReplaceById(xs: seq<Entry>, t: string, m: Message): (r: seq<Entry>)
    ensures |r| == |xs|
    ensures forall i :: 0 <= i < |xs| ==> r[i] == if xs[i].Id() == t then Server(m) else xs[i]
  {
    if xs == [] then []
    else [if xs[0].Id() == t then Server(m) else xs[0]] + ReplaceById(xs[1..], t, m)
  }

  /** `messages.filter(msg => msg._id !== tempId)`. */
  function RemoveById(xs: seq<Entry>, t: string): (r: seq<Entry>)
    ensures forall e :: e in r <==> e in xs && e.Id() != t
    ensures FreshId(r, t)
    ensures |r| + |WithId(xs, t)| == |xs|
    ensures forall e :: multiset(r)[e] == if e.Id() != t then multiset(xs)[e] else 0
  {
    var r := Filter(xs, IdIsNot(t));
    RemovedCount(xs, t);
    FilterMultiset(xs, IdIsNot(t));
    r
  }

  lemma {:induction false} RemovedCount(xs: seq<Entry>, t: string)
    ensures |Filter(xs, IdIsNot(t))| + |WithId(xs, t)| == |xs|
  {
    if xs != [] {
      RemovedCount(xs[1..], t);
    }
  }

  /** The optimistic placeholder for a send. */
  function PlaceholderFor(tempId: string, me: UserId, receiver: UserId,
                          text: Option<string>, image: Option<string>, createdAt: string): (e: Entry)
    ensures e.Id() == tempId && e.IsOptimistic()
    ensures e.ReciverIdField().None?
  {
    Placeholder(tempId, me, receiver, text, image, createdAt)
  }

  /** `sendMessage` up to its `await`: the placeholder is appended. The
      temporary id (`temp-${Date.now()}`) and creation time are parameters;
      the caller `me` is `authUser._id`. With no selected user, reading
      `selectedUser._id` throws before anything is set. */
  function Submit(s: ChatState, tempId: string, me: UserId,
                  text: Option<string>, image: Option<string>, createdAt: string): (r: ChatState)
    ensures s.selectedUser.None? ==> r == s
    ensures s.selectedUser.Some? ==>
              && |r.messages| == |s.messages| + 1
              && r.messages[..|s.messages|] == s.messages
              && r.messages[|s.messages|].Placeholder?
              && r.messages[|s.messages|].Id() == tempId
              && r.messages[|s.messages|].IsOptimistic()
              && r.messages[|s.messages|].senderId == me
              && r.messages[|s.messages|].receiverId == s.selectedUser.value.id
              && r.messages[|s.messages|].text == text
              && r.messages[|s.messages|].image == image
    ensures r == s.(messages := r.messages)
  {
    if s.selectedUser.None? then s
    else
      var p := PlaceholderFor(tempId, me, s.selectedUser.value.id, text, image, createdAt);
      s.(messages := s.messages + [p])
  }

  /** The success branch, applied to the list as it is when the reply arrives. */
  function Confirm(s: ChatState, tempId: string, saved: Message): (r: ChatState)
    ensures |r.messages| == |s.messages|
    ensures forall i :: 0 <= i < |s.messages| && s.messages[i].Id() != tempId ==> r.messages[i] == s.messages[i]
    ensures forall i :: 0 <= i < |s.messages| && s.messages[i].Id() == tempId ==> r.messages[i] == Server(saved)
    ensures r == s.(messages := r.messages)
  {
    s.(messages := ReplaceById(s.messages, tempId, saved))
  }

  /** The failure branch, applied to the list as it is when the error arrives. */
  function Rollback(s: ChatState, tempId: string): (r: ChatState)
    ensures forall e :: e in r.messages <==> e in s.messages && e.Id() != tempId
    ensures forall e :: multiset(r.messages)[e] == if e.Id() != tempId then multiset(s.messages)[e] else 0
    ensures FreshId(r.messages, tempId)
    ensures r == s.(messages := r.messages)
  {
    s.(messages := RemoveById(s.messages, tempId))
  }

  /** Rolling back keeps the order of what remains: cutting the list anywhere,
      the result is the rolled-back front followed by the rolled-back back. */
  lemma RollbackSplits(s: ChatState, tempId: string, i: nat)
    requires i <= |s.messages|
    ensures Rollback(s, tempId).messages
            == RemoveById(s.messages[..i], tempId) + RemoveById(s.messages[i..], tempId)
  {
    assert s.messages == s.messages[..i] + s.messages[i..];
    FilterAppend(s.messages[..i], s.messages[i..], IdIsNot(tempId));
  }

  // ---------------------------------------------------------------------------
  // Reconciliation properties
  // ---------------------------------------------------------------------------

  /** A fresh temporary id names exactly one entry after the placeholder is appended. */
  lemma SubmitAddsOnePlaceholder(s: ChatState, tempId: string, me: UserId,
                                 text: Option<string>, image: Option<string>, createdAt: string)
    requires s.selectedUser.Some?
    requires FreshId(s.messages, tempId)
    ensures var r := Submit(s, tempId, me, text, image, createdAt);
            |WithId(r.messages, tempId)| == 1
  {
    var r := Submit(s, tempId, me, text, image, createdAt);
    var p := r.messages[|s.messages|];
    assert r.messages == s.messages + [p];
    var keep := IdIs(tempId);
    assert forall i :: 0 <= i < |s.messages| ==> !keep(s.messages[i]);
    FilterKeepsNone(s.messages, keep);
    assert Filter([p], keep) == [p] by {
      FilterKeepsAll([p], keep);
    }
    FilterAppend(s.messages, [p], keep);
  }

  /** Replacing by id changes exactly the one placeholder, wherever other
      sends or fetches have put entries before or after it. */
  lemma {:induction false} ReplaceAmidOthers(before: seq<Entry>, p: Entry, after: seq<Entry>, m: Message)
    requires FreshId(before, p.Id()) && FreshId(after, p.Id())
    ensures ReplaceById(before + [p] + after, p.Id(), m) == before + [Server(m)] + after
  {
    var xs := before + [p] + after;
    var r := ReplaceById(xs, p.Id(), m);
    var want := before + [Server(m)] + after;
    assert |r| == |want|;
    forall i | 0 <= i < |r|
      ensures r[i] == want[i]
    {
      if i < |before| {
        assert xs[i] == before[i];
      } else if i > |before| {
        assert xs[i] == after[i - |before| - 1];
      }
    }
  }

  /** Removing by id drops exactly the one placeholder, wherever other
      sends or fetches have put entries before or after it, and keeps the
      relative order of everything else. */
  lemma RemoveAmidOthers(before: seq<Entry>, p: Entry, after: seq<Entry>)
    requires FreshId(before, p.Id()) && FreshId(after, p.Id())
    ensures RemoveById(before + [p] + after, p.Id()) == before + after
  {
    var t := p.Id();
    var keep := IdIsNot(t);
    FilterAppend(before + [p], after, keep);
    FilterAppend(before, [p], keep);
    FilterKeepsAll(before, keep);
    FilterKeepsAll(after, keep);
    FilterKeepsNone([p], keep);
    assert Filter(before + [p], keep) == before;
    assert Filter(before + [p] + after, keep) == before + after;
  }

  /** Success leaves the list length unchanged: the placeholder is replaced in place. */
  lemma ConfirmReplacesPlaceholder(s: ChatState, tempId: string, me: UserId,
                                   text: Option<string>, image: Option<string>, createdAt: string,
                                   saved: Message)
    requires s.selectedUser.Some?
    requires FreshId(s.messages, tempId)
    ensures var pending := Submit(s, tempId, me, text, image, createdAt);
            Confirm(pending, tempId, saved).messages == s.messages + [Server(saved)]
  {
    var pending := Submit(s, tempId, me, text, image, createdAt);
    var p := pending.messages[|s.messages|];
    assert pending.messages == s.messages + [p] + [];
    ReplaceAmidOthers(s.messages, p, [], saved);
  }

  /** Failure with no interleaved change restores the list exactly. */
  lemma RollbackRestores(s: ChatState, tempId: string, me: UserId,
                         text: Option<string>, image: Option<string>, createdAt: string)
    requires s.selectedUser.Some?
    requires FreshId(s.messages, tempId)
    ensures Rollback(Submit(s, tempId, me, text, image, createdAt), tempId) == s
  {
    var pending := Submit(s, tempId, me, text, image, createdAt);
    var p := pending.messages[|s.messages|];
    assert pending.messages == s.messages + [p] + [];
    RemoveAmidOthers(s.messages, p, []);
    assert s.messages + [] == s.messages;
  }

  /** A conversation fetch that resolves while a send is in flight drops its
      placeholder; the send's success then finds nothing to replace, so the
      list stays exactly what was fetched, and the sent message is shown only
      if the fetch already returned it. */
  lemma {:induction false} FetchDuringSendDropsPlaceholder(s: ChatState, tempId: string, me: UserId,
                                                          text: Option<string>, image: Option<string>, createdAt: string,
                                                          fetched: seq<Message>, saved: Message)
    requires s.selectedUser.Some?
    requires forall i :: 0 <= i < |fetched| ==> fetched[i].id != tempId
    ensures var pending := GetMessagesByUserIdResolved(Submit(s, tempId, me, text, image, createdAt), Fetched(fetched));
            Confirm(pending, tempId, saved).messages == ServerEntries(fetched)
    ensures var pending := GetMessagesByUserIdResolved(Submit(s, tempId, me, text, image, createdAt), Fetched(fetched));
            Server(saved) in Confirm(pending, tempId, saved).messages <==> saved in fetched
  {
    var pending := GetMessagesByUserIdResolved(Submit(s, tempId, me, text, image, createdAt), Fetched(fetched));
    assert pending.messages == ServerEntries(fetched);
    var after := Confirm(pending, tempId, saved).messages;
    forall i | 0 <= i < |fetched|
      ensures after[i] == pending.messages[i]
    {
      assert pending.messages[i] == Server(fetched[i]);
    }
    assert after == ServerEntries(fetched);
    if saved in fetched {
      var i :| 0 <= i < |fetched| && fetched[i] == saved;
      assert after[i] == Server(saved);
    }
  }

  /** Two sends in the same millisecond get the same temporary id: the first
      reply overwrites both placeholders, so the first message is shown twice
      and the second never, even after its own reply arrives. */
  lemma SameMillisecondSends(s: ChatState, tempId: string, me: UserId,
                             text1: Option<string>, text2: Option<string>,
                             createdAt: string, saved1: Message, saved2: Message)
    requires s.selectedUser.Some?
    requires FreshId(s.messages, tempId)
    requires saved1.id != tempId
    ensures var twice := Submit(Submit(s, tempId, me, text1, None, createdAt), tempId, me, text2, None, createdAt);
            Confirm(Confirm(twice, tempId, saved1), tempId, saved2).messages
              == s.messages + [Server(saved1), Server(saved1)]
  {
    var once := Submit(s, tempId, me, text1, None, createdAt);
    var twice := Submit(once, tempId, me, text2, None, createdAt);
    var first := Confirm(twice, tempId, saved1);
    var want := s.messages + [Server(saved1), Server(saved1)];
    assert |first.messages| == |want|;
    forall i | 0 <= i < |want|
      ensures first.messages[i] == want[i]
    {
      if i < |s.messages| {
        assert twice.messages[i] == s.messages[i];
      }
    }
    assert first.messages == want;
    assert FreshId(want, tempId);
    var second := Confirm(first, tempId, saved2);
    assert forall i :: 0 <= i < |want| ==> second.messages[i] == want[i];
  }
}

=== FILE: common.dfy ===
/**
  Shared vocabulary of the model: an optional value, a generic order-keeping
  filter, and the few JavaScript string primitives the application relies on
  (`trim`, the regular-expression class `\s`, `length`, `toLowerCase` and
  `includes`), stated over Dafny strings of Unicode scalar values.
 */
module Common {

  datatype Option<+T> = None | Some(value: T)

  /** JavaScript truthiness of an optional string: absent and "" are falsy. */
  predicate Truthy(o: Option<string>) {
    o.Some? && o.value != ""
  }

  // ---------------------------------------------------------------------------
  // Filtering a sequence, keeping order
  // ---------------------------------------------------------------------------

  /** `xs.filter(p)`: the elements of `xs` satisfying `p`, in their original order. */
  function Filter<T(!new)>(xs: seq<T>, p: T -> bool): (r: seq<T>)
    ensures |r| <= |xs|
    ensures forall x :: x in r <==> x in xs && p(x)
  {
    if xs == [] then []
    else
      assert xs == [xs[0]] + xs[1..];
      (if p(xs[0]) then [xs[0]] else []) + Filter(xs[1..], p)
  }

  /** Each kept element occurs as often as in the input; the others not at all. */
  lemma {:induction false} FilterMultiset<T(!new)>(xs: seq<T>, p: T -> bool)
    ensures forall x :: multiset(Filter(xs, p))[x] == if p(x) then multiset(xs)[x] else 0
  {
    if xs != [] {
      FilterMultiset(xs[1..], p);
      var head := if p(xs[0]) then [xs[0]] else [];
      assert xs == [xs[0]] + xs[1..];
      assert multiset(xs) == multiset([xs[0]]) + multiset(xs[1..]);
      assert Filter(xs, p) == head + Filter(xs[1..], p);
      assert multiset(Filter(xs, p)) == multiset(head) + multiset(Filter(xs[1..], p));
    }
  }

  /** Filtering distributes over concatenation. */
  lemma {:induction false} FilterAppend<T(!new)>(xs: seq<T>, ys: seq<T>, p: T -> bool)
    ensures Filter(xs + ys, p) == Filter(xs, p) + Filter(ys, p)
  {
    if xs == [] {
      assert xs + ys == ys;
    } else {
      assert (xs + ys)[1..] == xs[1..] + ys;
      FilterAppend(xs[1..], ys, p);
    }
  }

  /** Two predicates that agree everywhere select the same subsequence. */
  lemma {:induction false} FilterExtensional<T(!new)>(xs: seq<T>, p: T -> bool, q: T -> bool)
    requires forall x :: p(x) == q(x)
    ensures Filter(xs, p) == Filter(xs, q)
  {
    if xs != [] {
      FilterExtensional(xs[1..], p, q);
    }
  }

  /** A filter that rejects nothing returns its input unchanged. */
  lemma {:induction false} FilterKeepsAll<T(!new)>(xs: seq<T>, p: T -> bool)
    requires forall i :: 0 <= i < |xs| ==> p(xs[i])
    ensures Filter(xs, p) == xs
  {
    if xs != [] {
      FilterKeepsAll(xs[1..], p);
    }
  }

  /** A filter that accepts nothing returns the empty sequence. */
  lemma {:induction false} FilterKeepsNone<T(!new)>(xs: seq<T>, p: T -> bool)
    requires forall i :: 0 <= i < |xs| ==> !p(xs[i])
    ensures Filter(xs, p) == []
  {
    if xs != [] {
      FilterKeepsNone(xs[1..], p);
    }
  }

  /** Elements pairwise distinct under a key function. */
  predicate DistinctBy<T, K(==)>(xs: seq<T>, key: T -> K) {
    forall i, j :: 0 <= i < j < |xs| ==> key(xs[i]) != key(xs[j])
  }

  /** Filtering never creates duplicates. */
  lemma {:induction false} FilterKeepsDistinct<T(!new), K>(xs: seq<T>, p: T -> bool, key: T -> K)
    requires DistinctBy(xs, key)
    ensures DistinctBy(Filter(xs, p), key)
  {
    if xs != [] {
      FilterKeepsDistinct(xs[1..], p, key);
      var r := Filter(xs, p);
      var rest := Filter(xs[1..], p);
      if p(xs[0]) {
        assert r == [xs[0]] + rest;
        forall j | 0 < j < |r|
          ensures key(r[0]) != key(r[j])
        {
          assert r[j] in xs[1..];
          var k :| 0 <= k < |xs[1..]| && xs[1..][k] == r[j];
          assert key(xs[0]) != key(xs[k + 1]);
        }
      }
    }
  }

  // ---------------------------------------------------------------------------
  // JavaScript string primitives
  // ---------------------------------------------------------------------------

  /** The characters JavaScript's `String.prototype.trim` removes and that the
      regular-expression class `\s` matches: ECMAScript WhiteSpace
      (tab, vertical tab, form feed, space, no-break space, byte-order mark,
      and the Unicode space separators) and LineTerminator. */
  predicate IsSpace(c: char) {
    || c == '\t' || c == '\n' || c == '\U{000B}' || c == '\U{000C}' || c == '\r'
    || c == ' ' || c == '\U{00A0}' || c == '\U{1680}'
    || ('\U{2000}' <= c <= '\U{200A}')
    || c == '\U{2028}' || c == '\U{2029}' || c == '\U{202F}' || c == '\U{205F}'
    || c == '\U{3000}' || c == '\U{FEFF}'
  }

  /** Number of leading white-space characters. */
  function LeadingSpaces(s: string): (n: nat)
    ensures n <= |s|
    ensures forall k :: 0 <= k < n ==> IsSpace(s[k])
    ensures n < |s| ==> !IsSpace(s[n])
  {
    if s != [] && IsSpace(s[0]) then 1 + LeadingSpaces(s[1..]) else 0
  }

  /** Number of trailing white-space characters. */
  function TrailingSpaces(s: string): (n: nat)
    ensures n <= |s|
    ensures forall k :: |s| - n <= k < |s| ==> IsSpace(s[k])
    ensures n < |s| ==> !IsSpace(s[|s| - n - 1])
  {
    if s != [] && IsSpace(s[|s| - 1]) then 1 + TrailingSpaces(s[..|s| - 1]) else 0
  }

  /** `t` occurs in `s` starting at index `i`. */
  predicate InfixAt(s: string, t: string, i: int) {
    0 <= i && i + |t| <= |s| && s[i..i + |t|] == t
  }

  /** `r` is `s` with only white space cut away before index `a` and after `a + |r|`. */
  ghost predicate SpaceCutAt(s: string, r: string, a: int) {
    && InfixAt(s, r, a)
    && (forall k :: 0 <= k < a ==> IsSpace(s[k]))
    && (forall k :: a + |r| <= k < |s| ==> IsSpace(s[k]))
  }

  /** `s.trim()`: the infix of `s` left after removing white space at both ends. */
  function Trim(s: string): (r: string)
    ensures |r| <= |s|
    ensures r == [] || (!IsSpace(r[0]) && !IsSpace(r[|r| - 1]))
    ensures exists a :: SpaceCutAt(s, r, a)
  {
    var a := LeadingSpaces(s);
    var rest := s[a..];
    var r := rest[..|rest| - TrailingSpaces(rest)];
    assert SpaceCutAt(s, r, a);
    r
  }

  /** A string of white space only trims to the empty string, and nothing else does. */
  lemma TrimEmptyIffAllSpace(s: string)
    ensures Trim(s) == [] <==> forall k :: 0 <= k < |s| ==> IsSpace(s[k])
  {
    if Trim(s) == [] {
      var a :| SpaceCutAt(s, Trim(s), a);
    }
  }

  /** `s.length`: JavaScript counts UTF-16 code units, so a character outside
      the Basic Multilingual Plane counts twice. */
  function JsLength(s: string): (n: nat)
    ensures |s| <= n <= 2 * |s|
    ensures (forall k :: 0 <= k < |s| ==> s[k] <= '\U{FFFF}') ==> n == |s|
    ensures n == 0 <==> s == []
  {
    if s == [] then 0
    else (if s[0] <= '\U{FFFF}' then 1 else 2) + JsLength(s[1..])
  }

  /** Lower-casing of one character, for the ASCII letters. */
  function LowerChar(c: char): char {
    if 'A' <= c <= 'Z' then (c as int - 'A' as int + 'a' as int) as char else c
  }

  /** `s.toLowerCase()` on ASCII letters; other characters are kept. */
  function Lower(s: string): (r: string)
    ensures |r| == |s|
    ensures forall k :: 0 <= k < |s| ==> r[k] == LowerChar(s[k])
  {
    if s == [] then [] else [LowerChar(s[0])] + Lower(s[1..])
  }

  /** Lower-casing is determined character by character. */
  lemma LowerPointwise(s: string, t: string)
    requires |s| == |t| && forall k :: 0 <= k < |s| ==> LowerChar(s[k]) == t[k]
    ensures Lower(s) == t
  {
  }

  /** Lower-casing twice is lower-casing once. */
  lemma LowerIdempotent(s: string)
    ensures Lower(Lower(s)) == Lower(s)
  {
    var l := Lower(s);
    assert forall k :: 0 <= k < |l| ==> LowerChar(l[k]) == l[k];
    LowerPointwise(l, l);
  }

  /** `s.includes(t)`: `t` occurs as a contiguous infix of `s`. */
  predicate Contains(s: string, t: string) {
    exists i | 0 <= i <= |s| :: InfixAt(s, t, i)
  }

  /** A string lacking one of `t`'s characters does not contain `t`. */
  lemma MissingCharNotContained(s: string, t: string, j: nat)
    requires j < |t| && forall k :: 0 <= k < |s| ==> s[k] != t[j]
    ensures !Contains(s, t)
  {
    forall i | 0 <= i <= |s|
      ensures !InfixAt(s, t, i)
    {
      if i + |t| <= |s| {
        assert s[i..i + |t|][j] == s[i + j];
      }
    }
  }

  /** `c.repeat(n)`. */
  function Repeat(c: char, n: nat): (r: string)
    ensures |r| == n
    ensures forall k :: 0 <= k < n ==> r[k] == c
  {
    if n == 0 then [] else [c] + Repeat(c, n - 1)
  }

  function Min(a: int, b: int): int {
    if a <= b then a else b
  }
}

=== FILE: login_page.dfy ===
/**
  The login page's handling of the login request's result: an error sets
  the page's error to the server's message (or a fallback) and flags both
  credential fields; anything else leaves the page as it was.
 */
module LoginPage {
  import opened Common
  import opened ValidationChat
  import opened AuthForm

  const Fallback := "Invalid credentials. Please check your email and password."

  /** What the auth store's `login` resolved to: nothing, an error carrying
      the server's `message` (if any), or a value. */
  datatype ApiResult = NoResult | Failed(serverMessage: Option<string>) | Succeeded

  /** The delayed part of `handleSubmit`. */
  function Resolve(s: Form, result: ApiResult): (r: Form)
    ensures result.Failed? ==>
              && r.apiError == Some(ServerMessageOr(result.serverMessage, Fallback))
              && Flag(r.errors, Email) && Flag(r.errors, Password)
              && AgreeExcept(s.errors, r.errors, {Email, Password})
    ensures !result.Failed? ==> r == s
    ensures r.data == s.data && r.submitCount == s.submitCount
  {
    match result
    case Failed(m) => s.(apiError := Some(ServerMessageOr(m, Fallback)), errors := Raise(s.errors, {Email, Password}))
    case _ => s
  }

  /** The flags a server error leaves do not depend on its message. */
  lemma FlagsIgnoreMessage(s: Form, m1: Option<string>, m2: Option<string>)
    ensures Resolve(s, Failed(m1)).errors == Resolve(s, Failed(m2)).errors
  {
  }

  /** The server's invalid-credentials reply is shown as sent, and the fallback
      only when the server sent no message. */
  lemma ServerMessageShown(s: Form, m: Option<string>)
    ensures Resolve(s, Failed(m)).apiError == Some(Fallback) <==> !Truthy(m) || m.value == Fallback
  {
  }

  /** Submitting, then typing a new email after a failed login, leaves only the
      password flagged among the credentials. */
  lemma RetypingEmailAfterFailure(s: Form, m: Option<string>, email: string)
    ensures var r := OnChange(Resolve(Submit(s), Failed(m)), Email, email);
            !Flag(r.errors, Email) && Flag(r.errors, Password) && r.apiError == Some(ServerMessageOr(m, Fallback))
            && FieldValue(r.data, Email) == email
  {
  }
}

=== FILE: message_validator.dfy ===
/**
  The send-request validator: an ordered chain of rejections run before the
  send handler (content present, 24-hex receiver id, receiver exists, not
  oneself), and the route that puts the two together.

  `findById` casts the path id to an ObjectId (`Models.ObjectIdOf`); the
  caller's id, `req.user._id.toString()`, is always the canonical spelling.
 */
module MessageValidator {
  import opened Common
  import opened Models
  import opened Utils
  import MessageLog

  /** The middleware either calls `next()` or answers with an error reply. */
  datatype Verdict = Next | Reject(status: nat, message: string)

  const ContentRequired := "Either text or image is required"
  const InvalidUserId := "Invalid user ID"
  const ReceiverNotFound := "Receiver not found"
  const SelfSend := "Cannot send message to yourself"
  const LookupError := "Error validating message"

  predicate IsHexDigit(c: char) {
    ('0' <= c <= '9') || ('a' <= c <= 'f') || ('A' <= c <= 'F')
  }

  /** `/^[0-9a-fA-F]{24}$/.test(id)`: upper-case hex digits are accepted. */
  predicate IsObjectIdString(s: string) {
    |s| == 24 && forall k :: 0 <= k < |s| ==> IsHexDigit(s[k])
  }

  /** A canonical id: 24 lower-case hex digits, as `_id.toString()` produces. */
  predicate IsCanonicalId(s: string) {
    IsObjectIdString(s) && ObjectIdOf(s) == s
  }

  /** The middleware exactly as written. `userIds` is the user collection,
      `lookupFails` a thrown `findById`. The self check compares the raw path
      id with the caller's id as strings. */
  function ValidateAsWritten(text: Option<string>, image: Option<string>, paramId: string,
                             callerId: UserId, userIds: set<UserId>, lookupFails: bool): (v: Verdict)
    ensures v.Reject? ==> v.status == 400
    ensures !Truthy(text) && !Truthy(image) ==> v == Reject(400, ContentRequired)
    ensures (Truthy(text) || Truthy(image)) && !IsObjectIdString(paramId) ==> v == Reject(400, InvalidUserId)
    ensures (Truthy(text) || Truthy(image)) && IsObjectIdString(paramId) ==>
              && (lookupFails ==> v == Reject(400, LookupError))
              && (!lookupFails && ObjectIdOf(paramId) !in userIds ==> v == Reject(400, ReceiverNotFound))
              && (!lookupFails && ObjectIdOf(paramId) in userIds && paramId == callerId ==> v == Reject(400, SelfSend))
    ensures v == Next <==>
              && (Truthy(text) || Truthy(image))
              && IsObjectIdString(paramId)
              && !lookupFails
              && ObjectIdOf(paramId) in userIds
              && paramId != callerId
  {
    if !Truthy(text) && !Truthy(image) then Reject(400, ContentRequired)
    else if !IsObjectIdString(paramId) then Reject(400, InvalidUserId)
    else if lookupFails then Reject(400, LookupError)
    else if ObjectIdOf(paramId) !in userIds then Reject(400, ReceiverNotFound)
    else if paramId == callerId then Reject(400, SelfSend)
    else Next
  }

  /** An upper-case spelling of the caller's own id passes every check of the
      as-written middleware although it names the caller's own account:
      the caller `aaaaaaaaaaaaaaaaaaaaaaaa` posting to `AAAAAAAAAAAAAAAAAAAAAAAA`. */
  lemma UpperCaseSelfIdAccepted(me: string, param: string)
    requires |me| == 24 && |param| == 24
    requires forall k :: 0 <= k < 24 ==> me[k] == 'a' && param[k] == 'A'
    ensures IsCanonicalId(me) && ObjectIdOf(param) == me
    ensures ValidateAsWritten(Some("hi"), None, param, me, {me}, false) == Next
  {
    assert forall k :: 0 <= k < |param| ==> LowerChar(param[k]) == me[k];
    LowerPointwise(param, me);
    assert forall k :: 0 <= k < |me| ==> LowerChar(me[k]) == me[k];
    LowerPointwise(me, me);
    assert param != me by { assert param[0] != me[0]; }
  }

  /** The corrected middleware rejects that same request as a self-send. */
  lemma UpperCaseSelfIdRejected(me: string, param: string)
    requires |me| == 24 && |param| == 24
    requires forall k :: 0 <= k < 24 ==> me[k] == 'a' && param[k] == 'A'
    ensures Validate(Some("hi"), None, param, me, {me}, false) == Reject(400, SelfSend)
  {
    UpperCaseSelfIdAccepted(me, param);
  }

  /** The middleware as evidently intended, and as the route below uses it:
      the self check compares the ObjectId the path names with the caller. */
  function Validate(text: Option<string>, image: Option<string>, paramId: string,
                    callerId: UserId, userIds: set<UserId>, lookupFails: bool): (v: Verdict)
    ensures v.Reject? ==> v.status == 400
    ensures !Truthy(text) && !Truthy(image) ==> v == Reject(400, ContentRequired)
    ensures (Truthy(text) || Truthy(image)) && !IsObjectIdString(paramId) ==> v == Reject(400, InvalidUserId)
    ensures (Truthy(text) || Truthy(image)) && IsObjectIdString(paramId) ==>
              && (lookupFails ==> v == Reject(400, LookupError))
              && (!lookupFails && ObjectIdOf(paramId) !in userIds ==> v == Reject(400, ReceiverNotFound))
              && (!lookupFails && ObjectIdOf(paramId) in userIds && ObjectIdOf(paramId) == callerId ==> v == Reject(400, SelfSend))
    ensures v == Next <==>
              && (Truthy(text) || Truthy(image))
              && IsObjectIdString(paramId)
              && !lookupFails
              && ObjectIdOf(paramId) in userIds
              && ObjectIdOf(paramId) != callerId
  {
    if !Truthy(text) && !Truthy(image) then Reject(400, ContentRequired)
    else if !IsObjectIdString(paramId) then Reject(400, InvalidUserId)
    else if lookupFails then Reject(400, LookupError)
    else if ObjectIdOf(paramId) !in userIds then Reject(400, ReceiverNotFound)
    else if ObjectIdOf(paramId) == callerId then Reject(400, SelfSend)
    else Next
  }

  /** The two middlewares differ only on non-canonical spellings of the caller's id. */
  lemma ValidatorsAgreeOnCanonicalIds(text: Option<string>, image: Option<string>, paramId: string,
                                      callerId: UserId, userIds: set<UserId>, lookupFails: bool)
    requires ObjectIdOf(paramId) == paramId
    ensures Validate(text, image, paramId, callerId, userIds, lookupFails)
            == ValidateAsWritten(text, image, paramId, callerId, userIds, lookupFails)
  {
  }

  // ---------------------------------------------------------------------------
  // The send route: validator, then handler
  // ---------------------------------------------------------------------------

  /** The route after its validator has answered: a rejection is sent as is
      and stores nothing; `next()` runs the send handler. */
  function Route(v: Verdict, log: seq<Message>, me: UserId, paramId: string,
                 text: Option<string>, image: Option<string>,
                 newId: string, upload: string -> string,
                 failure: Option<string>, nodeEnv: Option<string>): (out: MessageLog.SendOutcome)
    ensures v.Reject? ==> out.log == log && out.reply == Reply(v.status, Some(false), v.message, None)
    ensures v == Next && failure.Some? ==> out.log == log && out.reply.status == 500
    ensures v == Next && failure.None? ==>
              && out.reply.status == 201 && out.reply.data.Some?
              && out.log == log + [out.reply.data.value]
              && out.reply.data.value.senderId == me
              && out.reply.data.value.reciverId == ObjectIdOf(paramId)
              && out.reply.data.value.text == text
              && (out.reply.data.value.image.Some? <==> Truthy(image))
  {
    match v
    case Reject(status, message) => MessageLog.SendOutcome(log, Reply(status, Some(false), message, None))
    case Next => MessageLog.Send(log, me, paramId, text, image, newId, upload, failure, nodeEnv)
  }

  /** `POST /messages/send/:id` exactly as written: the as-written validator,
      then the send handler. */
  function PostMessageAsWritten(log: seq<Message>, userIds: set<UserId>, me: UserId, paramId: string,
                                text: Option<string>, image: Option<string>, lookupFails: bool,
                                newId: string, upload: string -> string,
                                failure: Option<string>, nodeEnv: Option<string>): (out: MessageLog.SendOutcome)
    ensures ValidateAsWritten(text, image, paramId, me, userIds, lookupFails).Reject? ==>
              out.log == log && out.reply.status == 400 && out.reply.success == Some(false)
    ensures ValidateAsWritten(text, image, paramId, me, userIds, lookupFails) == Next && failure.None? ==>
              && out.reply.status == 201 && out.reply.data.Some?
              && out.log == log + [out.reply.data.value]
              && out.reply.data.value.senderId == me && out.reply.data.value.reciverId == ObjectIdOf(paramId)
  {
    Route(ValidateAsWritten(text, image, paramId, me, userIds, lookupFails),
          log, me, paramId, text, image, newId, upload, failure, nodeEnv)
  }

  /** The route with the corrected validator, as the rest of the model uses it. */
  function PostMessage(log: seq<Message>, userIds: set<UserId>, me: UserId, paramId: string,
                       text: Option<string>, image: Option<string>, lookupFails: bool,
                       newId: string, upload: string -> string,
                       failure: Option<string>, nodeEnv: Option<string>): (out: MessageLog.SendOutcome)
    ensures Validate(text, image, paramId, me, userIds, lookupFails).Reject? ==>
              out.log == log && out.reply.status == 400 && out.reply.success == Some(false)
    ensures Validate(text, image, paramId, me, userIds, lookupFails) == Next && failure.Some? ==>
              out.log == log && out.reply.status == 500
    ensures Validate(text, image, paramId, me, userIds, lookupFails) == Next && failure.None? ==>
              && out.reply.status == 201 && out.reply.data.Some?
              && out.log == log + [out.reply.data.value]
              && out.reply.data.value.senderId == me && out.reply.data.value.reciverId == ObjectIdOf(paramId)
  {
    Route(Validate(text, image, paramId, me, userIds, lookupFails),
          log, me, paramId, text, image, newId, upload, failure, nodeEnv)
  }

  /** The content check comes first on both routes: a request without text
      or image is refused for that reason, whatever its id, the user
      collection or the handler would do, and nothing is stored. */
  lemma ContentCheckedFirst(log: seq<Message>, userIds: set<UserId>, me: UserId, paramId: string,
                            text: Option<string>, image: Option<string>, lookupFails: bool,
                            newId: string, upload: string -> string,
                            failure: Option<string>, nodeEnv: Option<string>)
    requires !Truthy(text) && !Truthy(image)
    ensures var out := PostMessageAsWritten(log, userIds, me, paramId, text, image, lookupFails,
                                            newId, upload, failure, nodeEnv);
            out.log == log && out.reply == Reply(400, Some(false), ContentRequired, None)
    ensures var out := PostMessage(log, userIds, me, paramId, text, image, lookupFails,
                                   newId, upload, failure, nodeEnv);
            out.log == log && out.reply == Reply(400, Some(false), ContentRequired, None)
  {
  }

  /** The as-written route stores a message to oneself: the caller
      `aaaaaaaaaaaaaaaaaaaaaaaa` posting "hi" to `AAAAAAAAAAAAAAAAAAAAAAAA` gets
      a 201, and the stored message has the caller at both ends. The corrected
      route refuses the same request and stores nothing. */
  lemma UpperCaseSelfSendStored(log: seq<Message>, me: string, param: string,
                                newId: string, upload: string -> string, nodeEnv: Option<string>)
    requires |me| == 24 && |param| == 24
    requires forall k :: 0 <= k < 24 ==> me[k] == 'a' && param[k] == 'A'
    ensures var out := PostMessageAsWritten(log, {me}, me, param, Some("hi"), None, false, newId, upload, None, nodeEnv);
            && out.reply.status == 201
            && out.log == log + [out.reply.data.value]
            && out.reply.data.value.senderId == me && out.reply.data.value.reciverId == me
            && !MessageLog.NoSelfMessages(out.log)
    ensures PostMessage(log, {me}, me, param, Some("hi"), None, false, newId, upload, None, nodeEnv)
            == MessageLog.SendOutcome(log, Reply(400, Some(false), SelfSend, None))
  {
    UpperCaseSelfIdAccepted(me, param);
    var out := PostMessageAsWritten(log, {me}, me, param, Some("hi"), None, false, newId, upload, None, nodeEnv);
    assert out.log[|log|] == out.reply.data.value;
  }

  /** Every stored message carries a text or an image. */
  predicate AllHaveContent(log: seq<Message>) {
    forall i :: 0 <= i < |log| ==> Truthy(log[i].text) || log[i].image.Some?
  }

  /** The corrected route keeps the log canonical, free of messages to oneself
      and of empty messages; so the caller is never their own chat partner. */
  lemma PostMessagePreservesInvariants(log: seq<Message>, userIds: set<UserId>, me: UserId, paramId: string,
                                       text: Option<string>, image: Option<string>, lookupFails: bool,
                                       newId: string, upload: string -> string,
                                       failure: Option<string>, nodeEnv: Option<string>)
    requires Canonical(me)
    requires MessageLog.CanonicalLog(log) && MessageLog.NoSelfMessages(log) && AllHaveContent(log)
    ensures var out := PostMessage(log, userIds, me, paramId, text, image, lookupFails, newId, upload, failure, nodeEnv);
            && MessageLog.CanonicalLog(out.log) && MessageLog.NoSelfMessages(out.log) && AllHaveContent(out.log)
            && me !in MessageLog.PartnerIds(out.log, me)
  {
    var out := PostMessage(log, userIds, me, paramId, text, image, lookupFails, newId, upload, failure, nodeEnv);
    if Validate(text, image, paramId, me, userIds, lookupFails) == Next && failure.None? {
      var m := out.reply.data.value;
      assert out.log == log + [m];
      assert m.reciverId == ObjectIdOf(paramId) != me;
      assert Canonical(m.reciverId);
    }
    MessageLog.NotOwnPartner(out.log, me);
  }

  /** An accepted post is seen by both parties: each becomes the other's chat
      partner, and fetching the conversation by either spelling of the path id
      ends with the new message. */
  lemma PostedMessageReachesBothParties(log: seq<Message>, userIds: set<UserId>, me: UserId, paramId: string,
                                        text: Option<string>, image: Option<string>, lookupFails: bool,
                                        newId: string, upload: string -> string, nodeEnv: Option<string>)
    requires Canonical(me)
    requires Validate(text, image, paramId, me, userIds, lookupFails) == Next
    ensures var out := PostMessage(log, userIds, me, paramId, text, image, lookupFails, newId, upload, None, nodeEnv);
            var to := ObjectIdOf(paramId);
            && to in MessageLog.PartnerIds(out.log, me)
            && me in MessageLog.PartnerIds(out.log, to)
            && MessageLog.GetMessagesByUserId(out.log, me, paramId, None, nodeEnv).data
               == Some(MessageLog.History(log, me, to) + [out.reply.data.value])
            && MessageLog.GetMessagesByUserId(out.log, to, me, None, nodeEnv).data
               == Some(MessageLog.History(log, to, me) + [out.reply.data.value])
  {
    var out := PostMessage(log, userIds, me, paramId, text, image, lookupFails, newId, upload, None, nodeEnv);
    var m := out.reply.data.value;
    assert out.log == log + [m];
    assert m in out.log;
    MessageLog.PartnersSymmetric(out.log, m);
    MessageLog.SendExtendsHistory(log, me, paramId, text, image, newId, upload, nodeEnv);
  }
}

=== FILE: messages.dfy ===
/**
  The message controller's four handlers as pure functions over an
  in-memory user collection and message log. A thrown query or save is the
  `failure` parameter; the handlers answer it with `throw500` as written
  (`Utils.Throw500AsWritten`).

  Mongo queries here carry no sort clause, so each query result is modelled
  as the matching records in storage order, and every contract speaks only
  of WHICH records are returned (membership and multiplicity), never of
  their order.
 */
module MessageLog {
  import opened Common
  import opened Models
  import opened Utils

  // ---------------------------------------------------------------------------
  // Contacts: every user except the caller
  // ---------------------------------------------------------------------------

  /** The password-free view of each user, in order. */
  function PublicList(us: seq<User>): (r: seq<PublicUser>)
    ensures |r| == |us|
    ensures forall i :: 0 <= i < |us| ==> r[i] == Public(us[i])
  {
    if us == [] then [] else [Public(us[0])] + PublicList(us[1..])
  }

  /** The public views of the users selected by an id predicate are exactly
      the public views of the users whose id passes it. */
  lemma SelectedPublic(users: seq<User>, kept: seq<User>, keep: UserId -> bool)
    requires forall u :: u in kept <==> u in users && keep(u.id)
    ensures forall u :: u in users ==> (Public(u) in PublicList(kept) <==> keep(u.id))
    ensures forall p :: p in PublicList(kept) ==> keep(p.id) && exists u :: u in users && Public(u) == p
  {
    var r := PublicList(kept);
    forall u | u in users
      ensures Public(u) in r <==> keep(u.id)
    {
      if keep(u.id) {
        var i :| 0 <= i < |kept| && kept[i] == u;
        assert r[i] == Public(u);
      }
      if Public(u) in r {
        var i :| 0 <= i < |r| && r[i] == Public(u);
        assert kept[i] in kept;
      }
    }
    forall p | p in r
      ensures keep(p.id) && exists u :: u in users && Public(u) == p
    {
      var i :| 0 <= i < |r| && r[i] == p;
      assert kept[i] in kept;
    }
  }

  /** Selecting users and then projecting them is projecting and then
      selecting, when the two tests agree on every user's public view. */
  lemma {:induction false} PublicListFilter(us: seq<User>, q: User -> bool, p: PublicUser -> bool)
    requires forall u :: q(u) == p(Public(u))
    ensures PublicList(Filter(us, q)) == Filter(PublicList(us), p)
  {
    if us != [] {
      PublicListFilter(us[1..], q, p);
      var head := if q(us[0]) then [us[0]] else [];
      assert Filter(us, q) == head + Filter(us[1..], q);
      var l := PublicList(head + Filter(us[1..], q));
      assert l == PublicList(head) + PublicList(Filter(us[1..], q));
      assert PublicList(us) == [Public(us[0])] + PublicList(us[1..]);
      assert PublicList(us)[1..] == PublicList(us[1..]);
    }
  }

  /** `getAllContacts`: `User.find({ _id: { $ne: me } }).select("-password")`. */
  function Contacts(users: seq<User>, me: UserId): (r: seq<PublicUser>)
    ensures |r| <= |users|
    ensures forall p :: p in r ==> p.id != me
    ensures forall u :: u in users ==> (Public(u) in r <==> u.id != me)
    ensures forall p :: p in r ==> exists u :: u in users && Public(u) == p
    ensures forall p :: multiset(r)[p] == if p.id != me then multiset(PublicList(users))[p] else 0
  {
    var keep := (id: UserId) => id != me;
    var q := (u: User) => u.id != me;
    var notMe := (p: PublicUser) => p.id != me;
    var kept := Filter(users, q);
    SelectedPublic(users, kept, keep);
    PublicListFilter(users, q, notMe);
    FilterMultiset(PublicList(users), notMe);
    PublicList(kept)
  }

  /** `getAllContacts`. `fails` is a thrown `User.find`: the catch clause
      evaluates `(err, "...", res)` to `res` and throws that, so the handler
      sends no reply at all. */
  function GetAllContacts(users: seq<User>, me: UserId, fails: bool): (r: Option<Reply<seq<PublicUser>>>)
    ensures r.None? <==> fails
    ensures r.Some? ==> r.value.status == 200 && r.value.success == Some(true)
    ensures r.Some? ==> r.value.data == Some(Contacts(users, me))
    ensures r.Some? ==> forall u :: u in users ==> (Public(u) in r.value.data.value <==> u.id != me)
    ensures r.Some? ==> forall p ::
              multiset(r.value.data.value)[p] == if p.id != me then multiset(PublicList(users))[p] else 0
  {
    if fails then None
    else Some(Reply(200, Some(true), "Fetched Users Successfully", Some(Contacts(users, me))))
  }

  // ---------------------------------------------------------------------------
  // Conversation history: the two-way pair filter
  // ---------------------------------------------------------------------------

  /** The message goes from `a` to `b` or from `b` to `a`. */
  predicate Between(m: Message, a: UserId, b: UserId) {
    (m.senderId == a && m.reciverId == b) || (m.senderId == b && m.reciverId == a)
  }

  function PairFilter(a: UserId, b: UserId): Message -> bool {
    m => Between(m, a, b)
  }

  /** `getMessagesByUserId`: the `$or` query of the two directed pairs. */
  function History(log: seq<Message>, me: UserId, other: UserId): (r: seq<Message>)
    ensures forall m :: m in r ==> m in log
    ensures forall m :: m in r ==>
              (m.senderId == me && m.reciverId == other) || (m.senderId == other && m.reciverId == me)
    ensures forall m :: m in log && Between(m, me, other) ==> m in r
    ensures forall m :: multiset(r)[m] == if Between(m, me, other) then multiset(log)[m] else 0
  {
    FilterMultiset(log, PairFilter(me, other));
    Filter(log, PairFilter(me, other))
  }

  /** History is symmetric: both parties select exactly the same messages. */
  lemma HistorySymmetric(log: seq<Message>, a: UserId, b: UserId)
    ensures History(log, a, b) == History(log, b, a)
  {
    FilterExtensional(log, PairFilter(a, b), PairFilter(b, a));
  }

  /** A message with a third party never shows up in a conversation. */
  lemma HistoryExcludesThirdParties(log: seq<Message>, a: UserId, b: UserId, m: Message)
    requires m in log
    requires m.senderId !in {a, b} || m.reciverId !in {a, b}
    ensures m !in History(log, a, b)
  {
  }

  const FetchMessagesError := "Unknonw error while fetching the messages."

  /** `getMessagesByUserId`. The path id `other` is cast to an ObjectId by the
      query; `failure` is the message of a thrown query (a cast that fails
      included). */
  function GetMessagesByUserId(log: seq<Message>, me: UserId, other: string,
                               failure: Option<string>, nodeEnv: Option<string>): (r: Reply<seq<Message>>)
    ensures failure.Some? ==> r == Throw500AsWritten(failure.value, FetchMessagesError, nodeEnv)
    ensures failure.None? ==> r.status == 200 && r.success == Some(true)
    ensures failure.None? ==> r.data == Some(History(log, me, ObjectIdOf(other)))
    ensures failure.None? ==> forall m :: m in r.data.value <==> m in log && Between(m, me, ObjectIdOf(other))
  {
    if failure.Some? then Throw500AsWritten(failure.value, FetchMessagesError, nodeEnv)
    else Reply(200, Some(true), "Fetched messages successfully", Some(History(log, me, ObjectIdOf(other))))
  }

  // ---------------------------------------------------------------------------
  // Sending: append exactly one record
  // ---------------------------------------------------------------------------

  /** What `sendMessage` returns and the log after it. */
  datatype SendOutcome = SendOutcome(log: seq<Message>, reply: Reply<Message>)

  const SendError := "Unknown error while sending message."

  /** `sendMessage`. The sender is the authenticated caller, whose id is
      already an ObjectId; the receiver is the path id, cast to an ObjectId by
      the `Message` schema. An image, when supplied, is replaced by its upload
      URL (`upload`, uninterpreted). `failure` is the message of an error
      thrown by the upload or by `save`; it aborts before anything is stored. */
  function Send(log: seq<Message>, me: UserId, reciverId: UserId,
                text: Option<string>, image: Option<string>,
                newId: string, upload: string -> string,
                failure: Option<string>, nodeEnv: Option<string>): (out: SendOutcome)
    ensures failure.Some? ==> out.log == log && out.reply == Throw500AsWritten(failure.value, SendError, nodeEnv)
    ensures failure.None? ==>
              && out.reply.status == 201 && out.reply.success == Some(true)
              && out.reply.data.Some?
              && out.log == log + [out.reply.data.value]
              && out.reply.data.value.id == newId
              && out.reply.data.value.senderId == me
              && out.reply.data.value.reciverId == ObjectIdOf(reciverId)
              && Canonical(out.reply.data.value.reciverId)
              && out.reply.data.value.text == text
              && (out.reply.data.value.image.Some? <==> Truthy(image))
              && (Truthy(image) ==> out.reply.data.value.image == Some(upload(image.value)))
  {
    if failure.Some? then
      SendOutcome(log, Throw500AsWritten(failure.value, SendError, nodeEnv))
    else
      var imageUrl := if Truthy(image) then Some(upload(image.value)) else None;
      var m := Message(newId, me, ObjectIdOf(reciverId), text, imageUrl);
      SendOutcome(log + [m], Reply(201, Some(true), "Message Sent Successfully", Some(m)))
  }

  /** After a successful send, the conversation between the caller and the
      ObjectId the path names has exactly one new entry, equal to the returned
      message; with storage in insertion order it is the last entry. */
  lemma SendExtendsHistory(log: seq<Message>, me: UserId, reciverId: string,
                           text: Option<string>, image: Option<string>,
                           newId: string, upload: string -> string, nodeEnv: Option<string>)
    ensures var out := Send(log, me, reciverId, text, image, newId, upload, None, nodeEnv);
            var to := ObjectIdOf(reciverId);
            && History(out.log, me, to) == History(log, me, to) + [out.reply.data.value]
            && History(out.log, to, me) == History(log, to, me) + [out.reply.data.value]
    ensures var out := Send(log, me, reciverId, text, image, newId, upload, None, nodeEnv);
            var to := ObjectIdOf(reciverId);
            multiset(History(out.log, me, to)) == multiset(History(log, me, to)) + multiset{out.reply.data.value}
  {
    var out := Send(log, me, reciverId, text, image, newId, upload, None, nodeEnv);
    var to := ObjectIdOf(reciverId);
    var m := out.reply.data.value;
    assert out.log == log + [m];
    assert Between(m, me, to) && Between(m, to, me);
    FilterAppend(log, [m], PairFilter(me, to));
    assert Filter([m], PairFilter(me, to)) == [m];
    FilterAppend(log, [m], PairFilter(to, me));
    assert Filter([m], PairFilter(to, me)) == [m];
  }

  /** A send leaves every other conversation untouched. */
  lemma SendLeavesOtherHistories(log: seq<Message>, me: UserId, reciverId: string,
                                 text: Option<string>, image: Option<string>,
                                 newId: string, upload: string -> string, nodeEnv: Option<string>,
                                 a: UserId, b: UserId)
    requires {a, b} != {me, ObjectIdOf(reciverId)}
    ensures History(Send(log, me, reciverId, text, image, newId, upload, None, nodeEnv).log, a, b)
            == History(log, a, b)
  {
    var out := Send(log, me, reciverId, text, image, newId, upload, None, nodeEnv);
    var m := out.reply.data.value;
    FilterAppend(log, [m], PairFilter(a, b));
  }

  // ---------------------------------------------------------------------------
  // Chat partners: the counterpart of every message involving the caller
  // ---------------------------------------------------------------------------

  predicate Involves(m: Message, me: UserId) {
    m.senderId == me || m.reciverId == me
  }

  /** The non-caller party: the receiver if the caller sent it, else the sender. */
  function CounterpartOf(m: Message, me: UserId): UserId {
    if m.senderId == me then m.reciverId else m.senderId
  }

  /** `messages.map(...)` over the messages involving the caller. */
  function Counterparts(log: seq<Message>, me: UserId): (r: seq<UserId>)
    ensures |r| <= |log|
    ensures forall x :: x in r <==> exists m :: m in log && Involves(m, me) && CounterpartOf(m, me) == x
  {
    if log == [] then []
    else
      var rest := Counterparts(log[1..], me);
      assert forall m :: m in log <==> m == log[0] || m in log[1..];
      if Involves(log[0], me) then [CounterpartOf(log[0], me)] + rest else rest
  }

  /** The ids the `$in` query asks for. */
  function PartnerIds(log: seq<Message>, me: UserId): set<UserId> {
    set x | x in Counterparts(log, me)
  }

  /** `x` is a partner of `me` iff some message went from `me` to `x`, or from
      `x` (a different user) to `me`. */
  lemma PartnerIdsIff(log: seq<Message>, me: UserId, x: UserId)
    ensures x in PartnerIds(log, me) <==>
            exists m :: m in log && ((m.senderId == me && m.reciverId == x)
                                     || (m.senderId != me && m.reciverId == me && m.senderId == x))
  {
  }

  /** Partner symmetry: a message between two different users makes each a
      partner of the other. */
  lemma PartnersSymmetric(log: seq<Message>, m: Message)
    requires m in log
    requires m.senderId != m.reciverId
    ensures m.reciverId in PartnerIds(log, m.senderId)
    ensures m.senderId in PartnerIds(log, m.reciverId)
  {
    assert Involves(m, m.senderId) && CounterpartOf(m, m.senderId) == m.reciverId;
    assert Involves(m, m.reciverId) && CounterpartOf(m, m.reciverId) == m.senderId;
  }

  /** Every stored message names its two parties by canonical ids. */
  predicate CanonicalLog(log: seq<Message>) {
    forall i :: 0 <= i < |log| ==> Canonical(log[i].senderId) && Canonical(log[i].reciverId)
  }

  /** No message in the log has the same user at both ends. */
  predicate NoSelfMessages(log: seq<Message>) {
    forall i :: 0 <= i < |log| ==> log[i].senderId != log[i].reciverId
  }

  /** Without self-messages, nobody is their own chat partner. */
  lemma NotOwnPartner(log: seq<Message>, me: UserId)
    requires NoSelfMessages(log)
    ensures me !in PartnerIds(log, me)
  {
  }

  /** `getChatPartners`: `User.find({ _id: { $in: ids } }).select("-password")`. */
  function Partners(users: seq<User>, log: seq<Message>, me: UserId): (r: seq<PublicUser>)
    ensures |r| <= |users|
    ensures forall p :: p in r ==> p.id in PartnerIds(log, me)
    ensures forall u :: u in users ==> (Public(u) in r <==> u.id in PartnerIds(log, me))
    ensures forall p :: p in r ==> exists u :: u in users && Public(u) == p
  {
    var ids := PartnerIds(log, me);
    var keep := (id: UserId) => id in ids;
    var kept := Filter(users, (u: User) => keep(u.id));
    SelectedPublic(users, kept, keep);
    PublicList(kept)
  }

  /** Each user appears at most once among the partners when user ids are unique. */
  lemma PartnersDistinct(users: seq<User>, log: seq<Message>, me: UserId)
    requires DistinctBy(users, (u: User) => u.id)
    ensures DistinctBy(Partners(users, log, me), (p: PublicUser) => p.id)
  {
    var ids := PartnerIds(log, me);
    var keep := (id: UserId) => id in ids;
    var kept := Filter(users, (u: User) => keep(u.id));
    FilterKeepsDistinct(users, (u: User) => keep(u.id), (u: User) => u.id);
    var r := Partners(users, log, me);
    assert |r| == |kept| && forall i :: 0 <= i < |r| ==> r[i].id == kept[i].id;
  }

  const FetchPartnersError := "Unknown error while fetching chat partners."

  /** `getChatPartners`; `failure` is the message of a thrown query. */
  function GetChatPartners(users: seq<User>, log: seq<Message>, me: UserId,
                           failure: Option<string>, nodeEnv: Option<string>): (r: Reply<seq<PublicUser>>)
    ensures failure.Some? ==> r == Throw500AsWritten(failure.value, FetchPartnersError, nodeEnv)
    ensures failure.None? ==> r.status == 200 && r.success == Some(true)
    ensures failure.None? ==> r.data == Some(Partners(users, log, me))
    ensures failure.None? ==> forall u :: u in users ==> (Public(u) in r.data.value <==> u.id in PartnerIds(log, me))
  {
    if failure.Some? then Throw500AsWritten(failure.value, FetchPartnersError, nodeEnv)
    else Reply(200, Some(true), "Fetched All Chat Partners Successfully.", Some(Partners(users, log, me)))
  }
}

=== FILE: models.dfy ===
/**
  The two stored entities the controllers read and write: user accounts and
  chat messages. Identifiers are the strings the controllers compare; a
  user's password field holds whatever the signup path stored (a hash).
  Every stored id is an ObjectId, kept here as its canonical hex spelling.
 */
module Models {
  import opened Common

  type UserId = string

  datatype User = User(
    id: UserId,
    username: string,
    email: string,
    password: string,
    profilePic: Option<string>)

  /** A user record as returned by `.select("-password")`: every field but the password. */
  datatype PublicUser = PublicUser(
    id: UserId,
    username: string,
    email: string,
    profilePic: Option<string>)

  function Public(u: User): PublicUser {
    PublicUser(u.id, u.username, u.email, u.profilePic)
  }

  /** The canonical spelling of the ObjectId a hex string denotes. Mongoose
      casts a string to an ObjectId wherever a query or a new document puts it
      in an ObjectId field, and a hex string names the same ObjectId whatever
      the case of its letters; the model spells that cast as lower-casing. */
  function ObjectIdOf(s: string): (r: string)
    ensures |r| == |s|
    ensures Lower(r) == r
  {
    LowerIdempotent(s);
    Lower(s)
  }

  /** An id already in canonical form, as `_id.toString()` and stored ObjectIds are. */
  predicate Canonical(id: UserId) {
    ObjectIdOf(id) == id
  }

  /** A stored message. The receiver field keeps the source's spelling `reciverId`. */
  datatype Message = Message(
    id: string,
    senderId: UserId,
    reciverId: UserId,
    text: Option<string>,
    image: Option<string>)
}

=== FILE: signup_page.dfy ===
/**
  The signup page's handling of the signup request's result: the server's
  message (or a fallback) becomes the page's error, the fields the message
  names are flagged, and a successful signup navigates home. The 3-second
  wait before the request is not modelled; the result is a parameter.
 */
module SignupPage {
  import opened Common
  import opened ValidationChat
  import opened AuthForm

  const Fallback := "Something went wrong. Please try again."

  /** What the auth store's `signup` resolved to: nothing, an error carrying
      the server's `message` (if any), or a value with or without `data`. */
  datatype ApiResult = NoResult | Failed(serverMessage: Option<string>) | Succeeded(hasData: bool)

  /** The fields an error message blames: email if the message mentions it,
      else username if it mentions that, else both. */
  function Blamed(msg: string): (fs: set<Field>)
    ensures Password !in fs && fs != {}
    ensures fs <= {Email, Username}
  {
    var lower := Lower(msg);
    if Contains(lower, "email") then {Email}
    else if Contains(lower, "username") then {Username}
    else {Email, Username}
  }

  /** Which fields a message blames, by what its lower-cased text mentions. */
  lemma BlamedByMention(msg: string)
    ensures Contains(Lower(msg), "email") ==> Blamed(msg) == {Email}
    ensures !Contains(Lower(msg), "email") && Contains(Lower(msg), "username") ==> Blamed(msg) == {Username}
    ensures !Contains(Lower(msg), "email") && !Contains(Lower(msg), "username") ==> Blamed(msg) == {Email, Username}
  {
  }

  /** The page after the request settles, and where it navigates (if anywhere). */
  datatype Settled = Settled(form: Form, navigateTo: Option<string>)

  /** The delayed part of `handleSubmit`. */
  function Resolve(s: Form, result: ApiResult): (r: Settled)
    ensures result.Failed? ==>
              && r.form.apiError == Some(ServerMessageOr(result.serverMessage, Fallback))
              && AgreeExcept(s.errors, r.form.errors, Blamed(ServerMessageOr(result.serverMessage, Fallback)))
              && (forall f :: f in Blamed(ServerMessageOr(result.serverMessage, Fallback)) ==> Flag(r.form.errors, f))
              && r.navigateTo.None?
    ensures r.navigateTo.Some? <==> result == Succeeded(true)
    ensures r.navigateTo.Some? ==> r.navigateTo.value == "/"
    ensures !result.Failed? ==> r.form == s
    ensures r.form.data == s.data && r.form.submitCount == s.submitCount
  {
    match result
    case Failed(m) =>
      var msg := ServerMessageOr(m, Fallback);
      Settled(s.(apiError := Some(msg), errors := Raise(s.errors, Blamed(msg))), None)
    case Succeeded(hasData) => Settled(s, if hasData then Some("/") else None)
    case NoResult => Settled(s, None)
  }

  /** On an error, the page shows the message and raises the flags it blames. */
  lemma ResolveFailed(s: Form, m: Option<string>)
    ensures Resolve(s, Failed(m)).navigateTo.None?
    ensures Resolve(s, Failed(m)).form
            == s.(apiError := Some(ServerMessageOr(m, Fallback)), errors := Raise(s.errors, Blamed(ServerMessageOr(m, Fallback))))
  {
  }

  /** The password flag is never raised by a server error: whatever the
      message, it keeps its previous value. */
  lemma ServerErrorKeepsPasswordFlag(s: Form, m: Option<string>)
    ensures Flag(Resolve(s, Failed(m)).form.errors, Password) == Flag(s.errors, Password)
  {
    ResolveFailed(s, m);
    RaiseKeeps(s.errors, Blamed(ServerMessageOr(m, Fallback)), Password);
  }

  /** Receiving the same error twice leaves the page as receiving it once. */
  lemma ResolveIdempotent(s: Form, m: Option<string>)
    ensures Resolve(Resolve(s, Failed(m)).form, Failed(m)) == Resolve(s, Failed(m))
  {
    var once := Resolve(s, Failed(m)).form;
    ResolveFailed(s, m);
    ResolveFailed(once, m);
    RaiseIdempotent(s.errors, Blamed(ServerMessageOr(m, Fallback)));
  }

  /** A message without the letter m, in either case, mentions neither
      "email" nor "username", so it blames both fields. */
  lemma WithoutLetterMBlamesBoth(msg: string)
    requires 'm' !in msg && 'M' !in msg
    ensures Blamed(msg) == {Email, Username}
  {
    var lower := Lower(msg);
    forall k | 0 <= k < |lower|
      ensures lower[k] != 'm'
    {
      assert msg[k] in msg;
    }
    assert "email"[1] == 'm' && "username"[6] == 'm';
    MissingCharNotContained(lower, "email", 1);
    MissingCharNotContained(lower, "username", 6);
    BlamedByMention(msg);
  }

  /** The server's own duplicate-account reply names neither field, so it flags both. */
  lemma DuplicateAccountFlagsBoth(s: Form, msg: string)
    requires msg == "User already exists"
    ensures Blamed(msg) == {Email, Username}
    ensures var r := Resolve(s, Failed(Some(msg))).form;
            Flag(r.errors, Email) && Flag(r.errors, Username) && r.apiError == Some(msg)
  {
    WithoutLetterMBlamesBoth(msg);
    ResolveFailed(s, Some(msg));
  }
}

=== FILE: utils.dfy ===
/**
  Response construction shared by the controllers: the JSON reply shape,
  the session cookie written by `generateToken`, and the 500 reply built by
  `throw500`. The process environment is the parameter `nodeEnv`
  (`process.env.NODE_ENV`, absent when unset).
 */
module Utils {
  import opened Common

  /** `res.status(status).json({ success, message, data })`; a key the
      source leaves out of the body is `None`. */
  datatype Reply<+T> = Reply(status: nat, success: Option<bool>, message: string, data: Option<T>)

  /** `res.cookie(name, value, options)`; an option the source does not pass is `None`. */
  datatype Cookie = Cookie(
    name: string,
    value: string,
    maxAge: nat,
    httpOnly: Option<bool>,
    sameSite: Option<string>,
    secure: Option<bool>)

  const MsPerDay: nat := 24 * 60 * 60 * 1000

  /** The signed token's lifetime, `expiresIn: "7d"`, in days. */
  const TokenLifetimeDays: nat := 7

  /** `generateToken(userId, res)`: the cookie carrying the signed token.
      Signing is the uninterpreted parameter `sign`. */
  function TokenCookie(userId: string, sign: string -> string, nodeEnv: Option<string>): (c: Cookie)
    ensures c.name == "jwt" && c.value == sign(userId)
    ensures c.maxAge == 604800000 && c.maxAge == TokenLifetimeDays * MsPerDay
    ensures c.httpOnly == Some(true) && c.sameSite == Some("strict")
    ensures c.secure.Some? && (c.secure == Some(false) <==> nodeEnv == Some("development"))
  {
    Cookie("jwt", sign(userId), 7 * 24 * 60 * 60 * 1000, Some(true), Some("strict"),
           Some(if nodeEnv == Some("development") then false else true))
  }

  /** `throw500(err, devMessage, res)` exactly as written: the error's own
      message is shown only when NODE_ENV equals the misspelt 'developement'. */
  function Throw500AsWritten<T>(errMessage: string, devMessage: string, nodeEnv: Option<string>): (r: Reply<T>)
    ensures r.status == 500 && r.success == Some(false) && r.data.None?
    ensures nodeEnv == Some("developement") ==> r.message == errMessage
    ensures nodeEnv != Some("developement") ==> r.message == devMessage
  {
    Reply(500, Some(false), if nodeEnv == Some("developement") then errMessage else devMessage, None)
  }

  /** Under NODE_ENV "development", the environment `generateToken` checks for,
      the as-written reply hides the error's message. */
  lemma DevelopmentHidesErrorMessage()
    ensures Throw500AsWritten<bool>("connection refused", "Unknown error", Some("development")).message
            == "Unknown error"
  {
  }

  /** `throw500` as evidently intended, and as the corrected signup handler uses it:
      the error's own message in development, the generic message otherwise. */
  function Throw500<T>(errMessage: string, devMessage: string, nodeEnv: Option<string>): (r: Reply<T>)
    ensures r.status == 500 && r.success == Some(false) && r.data.None?
    ensures nodeEnv == Some("development") ==> r.message == errMessage
    ensures nodeEnv != Some("development") ==> r.message == devMessage
  {
    Reply(500, Some(false), if nodeEnv == Some("development") then errMessage else devMessage, None)
  }

  /** The intended reply agrees with the cookie's notion of development:
      the error detail is exposed exactly when the cookie is not marked secure. */
  lemma Throw500AgreesWithCookie(errMessage: string, devMessage: string, nodeEnv: Option<string>,
                                 userId: string, sign: string -> string)
    requires errMessage != devMessage
    ensures Throw500<bool>(errMessage, devMessage, nodeEnv).message == errMessage
            <==> TokenCookie(userId, sign, nodeEnv).secure == Some(false)
  {
  }
}

=== FILE: validation_chat.dfy ===
/**
  The credential checks behind the validation chat: the three format
  predicates, the per-mode field list, the error map and `allValid`, the
  bot's choice of feedback per field, the echo of the user's input (the
  password masked), and the guard that starts a run on a new trigger.
  Timers, typing indicators, scrolling and the API-error effect are not
  part of this model; a run is what it would post: the greeting (chosen by
  the mode), one round per field, and whether the closing line follows.
 */
module ValidationChat {
  import opened Common

  datatype Field = Username | Email | Password

  /** The `mode` prop as the pages pass it. */
  datatype Mode = Login | Signup

  /** `formData[field] || ""`: an absent or empty field reads as "". */
  function FieldValue(form: map<Field, string>, f: Field): string {
    if f in form then form[f] else ""
  }

  // ---------------------------------------------------------------------------
  // Format predicates
  // ---------------------------------------------------------------------------

  /** `validatePassword`: non-empty and at least 6 UTF-16 code units; no trimming. */
  function ValidPassword(p: string): (ok: bool)
    ensures ok ==> |p| >= 3
    ensures |p| >= 6 ==> ok
    ensures ok <==> p != "" && JsLength(p) >= 6
  {
    p != "" && JsLength(p) >= 6
  }

  /** `validateUsername`: the trimmed name has 3 to 20 UTF-16 code units. */
  function ValidUsername(u: string): (ok: bool)
    ensures ok ==> u != "" && 2 <= |Trim(u)| <= 20
    ensures ok <==> u != "" && 3 <= JsLength(Trim(u)) <= 20
  {
    u != "" && 3 <= JsLength(Trim(u)) <= 20
  }

  /** A password of three characters outside the Basic Multilingual Plane is
      long enough, because JavaScript counts each as two code units. */
  lemma ThreeAstralCharactersMakeAPassword(p: string)
    requires |p| == 3 && forall k :: 0 <= k < 3 ==> p[k] == '\U{1F512}'
    ensures ValidPassword(p)
  {
    assert p[1..][1..][1..] == [];
    assert JsLength(p[1..][1..]) == 2;
    assert JsLength(p[1..]) == 4;
  }

  /** No white space and no `@`: the class `[^\s@]`. */
  predicate NoSpaceOrAt(s: string) {
    forall k :: 0 <= k < |s| ==> !IsSpace(s[k]) && s[k] != '@'
  }

  /** `t` splits as L "@" A "." B at the given indices, with L, A and B
      non-empty and free of white space and `@`. */
  ghost predicate EmailSplit(t: string, at: int, dot: int) {
    && 0 < at && at + 1 < dot && dot + 1 < |t|
    && t[at] == '@' && t[dot] == '.'
    && NoSpaceOrAt(t[..at]) && NoSpaceOrAt(t[at + 1..dot]) && NoSpaceOrAt(t[dot + 1..])
  }

  /** `/^[^\s@]+@[^\s@]+\.[^\s@]+$/.test(t)`, stated as the existence of a split. */
  ghost predicate MatchesEmailRegex(t: string) {
    exists at, dot :: EmailSplit(t, at, dot)
  }

  /** Index of the first `@`, or `|t|` when there is none. */
  function FirstAt(t: string): (i: nat)
    ensures i <= |t|
    ensures forall k :: 0 <= k < i ==> t[k] != '@'
    ensures i < |t| ==> t[i] == '@'
  {
    if t == [] then 0 else if t[0] == '@' then 0 else 1 + FirstAt(t[1..])
  }

  /** A dot strictly inside `d`: neither its first nor its last character. */
  predicate HasInnerDot(d: string) {
    exists k | 0 < k < |d| - 1 :: d[k] == '.'
  }

  /** The regular expression, decided: one `@` after a non-empty local part,
      no white space, and a dot strictly inside the domain. */
  predicate EmailPattern(t: string) {
    var i := FirstAt(t);
    0 < i < |t| && NoSpaceOrAt(t[..i]) && NoSpaceOrAt(t[i + 1..]) && HasInnerDot(t[i + 1..])
  }

  /** Every string the decision procedure accepts matches the regular expression. */
  lemma EmailPatternSound(t: string)
    requires EmailPattern(t)
    ensures MatchesEmailRegex(t)
  {
    var i := FirstAt(t);
    var d := t[i + 1..];
    var k :| 0 < k < |d| - 1 && d[k] == '.';
    var dot := i + 1 + k;
    assert t[i + 1..dot] == d[..k];
    assert t[dot + 1..] == d[k + 1..];
    assert EmailSplit(t, i, dot);
  }

  /** Every string matching the regular expression is accepted by the decision procedure. */
  lemma EmailPatternComplete(t: string, at: int, dot: int)
    requires EmailSplit(t, at, dot)
    ensures EmailPattern(t)
  {
    var i := FirstAt(t);
    assert forall k :: 0 <= k < at ==> t[k] == t[..at][k];
    assert i == at;
    var d := t[i + 1..];
    forall j | 0 <= j < |d|
      ensures !IsSpace(d[j]) && d[j] != '@'
    {
      if i + 1 + j < dot {
        assert d[j] == t[at + 1..dot][j];
      } else if i + 1 + j > dot {
        assert d[j] == t[dot + 1..][j - (dot - at)];
      }
    }
    assert d[dot - i - 1] == '.';
  }

  /** The decision procedure agrees with the regular expression, both ways. */
  lemma EmailPatternIff(t: string)
    ensures EmailPattern(t) <==> MatchesEmailRegex(t)
  {
    if EmailPattern(t) {
      EmailPatternSound(t);
    }
    if MatchesEmailRegex(t) {
      var at, dot :| EmailSplit(t, at, dot);
      EmailPatternComplete(t, at, dot);
    }
  }

  /** `validateEmail`: the trimmed input matches the regular expression. */
  function ValidEmail(e: string): (ok: bool)
    ensures ok <==> e != "" && MatchesEmailRegex(Trim(e))
  {
    EmailPatternIff(Trim(e));
    e != "" && EmailPattern(Trim(e))
  }

  function FieldValid(f: Field, v: string): bool {
    match f
    case Username => ValidUsername(v)
    case Email => ValidEmail(v)
    case Password => ValidPassword(v)
  }

  // ---------------------------------------------------------------------------
  // Feedback per field
  // ---------------------------------------------------------------------------

  /** The bot's answer for one field; the counts are the trimmed length shown. */
  datatype Feedback =
    | UsernameRequired | UsernameTooShort(length: nat) | UsernameTooLong(length: nat)
    | UsernameUnmet | UsernameAccepted(trimmed: string)
    | EmailRequired | EmailMalformed | EmailAccepted
    | PasswordRequired | PasswordTooShort | PasswordAccepted
  {
    predicate Accepts() {
      UsernameAccepted? || EmailAccepted? || PasswordAccepted?
    }
  }

  /** The branch chain of `runValidation` for one field. */
  function FeedbackFor(f: Field, v: string): (fb: Feedback)
    ensures fb.Accepts() <==> FieldValid(f, v)
    ensures fb != UsernameUnmet
    ensures f == Username && !FieldValid(f, v) ==>
              (fb == UsernameRequired <==> JsLength(Trim(v)) == 0)
              && (fb.UsernameTooShort? <==> 0 < JsLength(Trim(v)) < 3)
              && (fb.UsernameTooLong? <==> JsLength(Trim(v)) > 20)
    ensures fb.UsernameTooShort? || fb.UsernameTooLong? ==> fb.length == JsLength(Trim(v))
    ensures f == Email && !FieldValid(f, v) ==> (fb == EmailRequired <==> Trim(v) == [])
    ensures f == Password && !FieldValid(f, v) ==> (fb == PasswordRequired <==> v == "")
    ensures f == Email && !FieldValid(f, v) && Trim(v) != [] ==> fb == EmailMalformed
    ensures f == Password && !FieldValid(f, v) && v != "" ==> fb == PasswordTooShort
    ensures fb.UsernameAccepted? <==> f == Username && ValidUsername(v)
    ensures fb.UsernameAccepted? ==> fb.trimmed == Trim(v)
    ensures fb == EmailAccepted <==> f == Email && ValidEmail(v)
    ensures fb == PasswordAccepted <==> f == Password && ValidPassword(v)
    ensures (fb.UsernameRequired? || fb.UsernameTooShort? || fb.UsernameTooLong? || fb.UsernameAccepted?) <==> f == Username
    ensures (fb.EmailRequired? || fb.EmailMalformed? || fb.EmailAccepted?) <==> f == Email
    ensures (fb.PasswordRequired? || fb.PasswordTooShort? || fb.PasswordAccepted?) <==> f == Password
  {
    match f
    case Username =>
      var trimmed := Trim(v);
      var n := JsLength(trimmed);
      if ValidUsername(v) then UsernameAccepted(trimmed)
      else if v == "" || n == 0 then UsernameRequired
      else if n < 3 then UsernameTooShort(n)
      else if n > 20 then UsernameTooLong(n)
      else UsernameUnmet
    case Email =>
      if ValidEmail(v) then EmailAccepted
      else if v == "" || JsLength(Trim(v)) == 0 then EmailRequired
      else EmailMalformed
    case Password =>
      if ValidPassword(v) then PasswordAccepted
      else if v == "" || JsLength(v) == 0 then PasswordRequired
      else PasswordTooShort
  }

  /** The echoed input: the password as at most ten bullets, any other field
      as typed, or "(empty)". */
  function Echo(f: Field, v: string): (shown: string)
    ensures f == Password ==> |shown| == Min(JsLength(v), 10) && forall k :: 0 <= k < |shown| ==> shown[k] == '•'
    ensures f == Password && v != "" ==> shown != []
    ensures f != Password ==> shown == if v == "" then "(empty)" else v
  {
    if f == Password then Repeat('•', Min(JsLength(v), 10))
    else if v == "" then "(empty)" else v
  }

  // ---------------------------------------------------------------------------
  // A validation run
  // ---------------------------------------------------------------------------

  /** `mode === "signup" ? [username, email, password] : [email, password]`. */
  function FieldsFor(mode: Mode): (fields: seq<Field>)
    ensures mode == Signup ==> fields == [Username, Email, Password]
    ensures mode == Login ==> fields == [Email, Password]
  {
    if mode == Signup then [Username, Email, Password] else [Email, Password]
  }

  /** What the chat posts for one field: the user's echoed input, then the bot's feedback. */
  datatype Round = Round(field: Field, shown: string, feedback: Feedback)

  /** The error map the `for (const field of fields)` loop fills in. */
  function ErrorsOf(fields: seq<Field>, form: map<Field, string>): (errors: map<Field, bool>)
    ensures errors.Keys == set f | f in fields
    ensures forall f :: f in errors ==> (errors[f] <==> !FieldValid(f, FieldValue(form, f)))
  {
    if fields == [] then map[]
    else
      var f := fields[0];
      ErrorsOf(fields[1..], form)[f := !FieldValid(f, FieldValue(form, f))]
  }

  /** `allValid` after the loop: every listed field passed. */
  function AllValid(fields: seq<Field>, form: map<Field, string>): (ok: bool)
    ensures ok <==> forall i :: 0 <= i < |fields| ==> FieldValid(fields[i], FieldValue(form, fields[i]))
    ensures ok <==> forall f :: f in fields ==> FieldValid(f, FieldValue(form, f))
  {
    if fields == [] then true
    else FieldValid(fields[0], FieldValue(form, fields[0])) && AllValid(fields[1..], form)
  }

  /** The round posted for one field. */
  function RoundFor(f: Field, form: map<Field, string>): (r: Round)
    ensures r.field == f
    ensures r.feedback.Accepts() <==> FieldValid(f, FieldValue(form, f))
  {
    var v := FieldValue(form, f);
    Round(f, Echo(f, v), FeedbackFor(f, v))
  }

  /** The rounds the loop posts, one per field, in the order of the fields. */
  function Rounds(fields: seq<Field>, form: map<Field, string>): (rounds: seq<Round>)
    ensures |rounds| == |fields|
    ensures forall i :: 0 <= i < |fields| ==> rounds[i] == RoundFor(fields[i], form)
  {
    if fields == [] then [] else [RoundFor(fields[0], form)] + Rounds(fields[1..], form)
  }

  /** A run after its greeting: the rounds, the error map, `allValid`, and
      whether the closing "fix these issues" line is posted. */
  datatype Run = Run(mode: Mode, rounds: seq<Round>, errors: map<Field, bool>, allValid: bool, fixIssues: bool)

  /** A run over the given field list. */
  function RunFields(mode: Mode, fields: seq<Field>, form: map<Field, string>): (r: Run)
    ensures r.mode == mode
    ensures r.errors.Keys == set f | f in fields
    ensures forall f :: f in r.errors ==> (r.errors[f] <==> !FieldValid(f, FieldValue(form, f)))
    ensures r.allValid <==> forall f :: f in fields ==> FieldValid(f, FieldValue(form, f))
    ensures r.fixIssues <==> exists i :: 0 <= i < |r.rounds| && !r.rounds[i].feedback.Accepts()
    ensures |r.rounds| == |fields| && forall i :: 0 <= i < |fields| ==> r.rounds[i] == RoundFor(fields[i], form)
  {
    var ok := AllValid(fields, form);
    var rounds := Rounds(fields, form);
    Run(mode, rounds, ErrorsOf(fields, form), ok, !ok)
  }

  /** The fields of each mode, as a set. */
  lemma ModeKeys(mode: Mode)
    ensures mode == Signup ==> (set f | f in FieldsFor(mode)) == {Username, Email, Password}
    ensures mode == Login ==> (set f | f in FieldsFor(mode)) == {Email, Password}
  {
    var fields := FieldsFor(mode);
    assert forall f :: f in fields <==> (mode == Signup && f == Username) || f == Email || f == Password;
  }

  /** `runValidation` once it has started, over the fields of its mode. */
  function RunValidation(mode: Mode, form: map<Field, string>): (r: Run)
    ensures mode == Signup ==> r.errors.Keys == {Username, Email, Password}
    ensures mode == Login ==> r.errors.Keys == {Email, Password}
    ensures forall f :: f in r.errors ==> (r.errors[f] <==> !FieldValid(f, FieldValue(form, f)))
  {
    ModeKeys(mode);
    RunFields(mode, FieldsFor(mode), form)
  }

  /** `allValid` is true exactly when no field is flagged in the error map. */
  lemma AllValidIffNoErrors(mode: Mode, form: map<Field, string>)
    ensures var r := RunValidation(mode, form);
            r.allValid <==> forall f :: f in r.errors ==> !r.errors[f]
  {
    var r := RunFields(mode, FieldsFor(mode), form);
    assert forall f :: f in FieldsFor(mode) <==> f in r.errors;
  }

  /** The error map reads only the listed fields. */
  lemma {:induction false} AgreeingFormsSameErrors(fields: seq<Field>, form1: map<Field, string>, form2: map<Field, string>)
    requires forall f :: f in fields ==> FieldValue(form1, f) == FieldValue(form2, f)
    ensures ErrorsOf(fields, form1) == ErrorsOf(fields, form2)
  {
    if fields != [] {
      AgreeingFormsSameErrors(fields[1..], form1, form2);
    }
  }

  /** `allValid` reads only the listed fields. */
  lemma {:induction false} AgreeingFormsSameVerdict(fields: seq<Field>, form1: map<Field, string>, form2: map<Field, string>)
    requires forall f :: f in fields ==> FieldValue(form1, f) == FieldValue(form2, f)
    ensures AllValid(fields, form1) == AllValid(fields, form2)
  {
    if fields != [] {
      AgreeingFormsSameVerdict(fields[1..], form1, form2);
    }
  }

  /** The posted rounds read only the listed fields. */
  lemma {:induction false} AgreeingFormsSameRounds(fields: seq<Field>, form1: map<Field, string>, form2: map<Field, string>)
    requires forall f :: f in fields ==> FieldValue(form1, f) == FieldValue(form2, f)
    ensures Rounds(fields, form1) == Rounds(fields, form2)
  {
    if fields != [] {
      AgreeingFormsSameRounds(fields[1..], form1, form2);
      assert RoundFor(fields[0], form1) == RoundFor(fields[0], form2);
    }
  }

  /** In login mode the username is never looked at. */
  lemma LoginIgnoresUsername(form: map<Field, string>, name: string)
    ensures RunValidation(Login, form[Username := name]) == RunValidation(Login, form)
  {
    var fields := FieldsFor(Login);
    AgreeingFormsSameErrors(fields, form[Username := name], form);
    AgreeingFormsSameVerdict(fields, form[Username := name], form);
    AgreeingFormsSameRounds(fields, form[Username := name], form);
  }

  // ---------------------------------------------------------------------------
  // Trigger guard
  // ---------------------------------------------------------------------------

  /** Whether a run starts, and the trigger recorded afterwards. */
  datatype TriggerStep = TriggerStep(runs: bool, last: int)

  /** The effect on `[trigger]` together with the first two lines of
      `runValidation`: a new positive trigger starts a run and is recorded. */
  function OnTrigger(trigger: int, last: int): (r: TriggerStep)
    ensures r.runs <==> trigger > 0 && trigger != last
    ensures r.runs ==> r.last == trigger
    ensures !r.runs ==> r.last == last
  {
    if trigger > 0 && trigger != last then TriggerStep(true, trigger) else TriggerStep(false, last)
  }

  /** The same trigger never starts a second run. */
  lemma TriggerRunsOnce(trigger: int, last: int)
    ensures !OnTrigger(trigger, OnTrigger(trigger, last).last).runs
  {
  }

  /** Each submit increments the page's counter, so each starts a run. */
  lemma EverySubmitRuns(submitCount: nat, last: int)
    requires last <= submitCount
    ensures OnTrigger(submitCount + 1, last).runs
  {
  }
}
